=== FILE: README.md ===
# Pokémon mahjong: a Dafny model of the game core

The game is a browser tile-matching puzzle. Cards showing characters fill a grid of ROWS × COLS cells. The player selects a card and then clicks a second card that shows the same character. The two cards are removed when `findPath` can join them. The joining path uses unit steps, crosses only empty cells or a two-cell band around the board, and changes direction at most twice. After a match, levels 2, 3 and 4 slide the remaining cards right, down or left, and level 1 leaves them where they are. The game is won when no card is left.

This project models that core in `game.js`. It covers:
- the board dealt by `initializeBoard`;
- the search in `findPath`;
- the match step of the click handler;
- the slides of `handlePostMatchBehavior`;
- the end test `checkGameComplete`;
- the even-cell fix that the restart button applies.

The modules are:
- `Board` (`board.dfy`): cells, clearing a cell, the multiset of characters on the board, and `checkGameComplete`.
- `Lines` (`lines.dfy`): one row or column packed toward one end. These are the reference definitions for the slides.
- `Gravity` (`gravity.dfy`): the three slides, each written as the game's repeat-until-nothing-moves loop and proved equal to its reference.
- `PathFinding` (`pathfinding.dfy`): the breadth-first search, proved sound and complete against a declarative notion of an admissible path.
- `Setup` (`setup.dfy`): difficulty, the card list, the Fisher–Yates shuffle, the row-major fill, and the even-cell fix.
- `Game` (`game.dfy`): the match step and the completion test.

Conventions:
- A card is the index of its character image. An empty cell (`null` in the game) is `Empty`.
- A position is `Point(x, y)`, with `x` the column, so a cell is read as `g[y][x]`.
- The browser's `Math.random()` becomes a function from the index of a draw to a natural number. The model reduces that number as the game does: `floor(random * 4 + 1) * 2` becomes `(draw % 4 + 1) * 2`, and `floor(random * (i + 1))` becomes `draw % (i + 1)`.

## Model

| member | source | states |
|---|---|---|
| Board.Clear | game.js:407-408 | Setting a cell to null empties that cell and leaves every other cell of the board as it was |
| Board.ClearRemovesCard | game.js:407-408 | Clearing a card's cell removes exactly one copy of that character from the multiset of cards on the board |
| Board.IsComplete | game.js:603-616 | The scan returns true exactly when every cell of every row is empty |
| Board.CompleteIffNoCards | game.js:603-616 | A board is all empty exactly when the multiset of its cards is empty |
| Lines.PackTowardEndKeeps | game.js:892-904 | The right-slide reference keeps the row's cards in their order and leaves no card with an empty cell to its right |
| Lines.PackTowardStartKeeps | game.js:924-936 | The left-slide reference keeps the row's cards in their order and leaves no card with an empty cell to its left |
| Lines.PackTowardEndUnique | game.js:892-904 | Any line with the same length and the same cards in the same order, in which nothing can slide right, is the packed line |
| Lines.PackTowardStartUnique | game.js:924-936 | Any line with the same length and the same cards in the same order, in which nothing can slide left, is the packed line |
| Lines.PackTowardEndIdempotent | game.js:892-904 | Packing a packed line toward the end changes nothing |
| Lines.PackTowardStartIdempotent | game.js:924-936 | Packing a packed line toward the start changes nothing |
| Lines.MoveTowardEnd | game.js:897-900 | Moving a card into the empty cell after it keeps the line's cards in order and lowers a measure, so the do-while loop ends |
| Lines.MoveTowardStart | game.js:929-932 | Moving a card into the empty cell before it keeps the line's cards in order and lowers a measure, so the do-while loop ends |
| Gravity.SettleRight | game.js:893-903 | The do-while loop over one row ends with that row packed to the right |
| Gravity.SettleLeft | game.js:925-935 | The do-while loop over one row ends with that row packed to the left |
| Gravity.SlideRight | game.js:891-905 | Level 2 packs every row to the right |
| Gravity.SlideLeft | game.js:923-937 | Level 4 packs every row to the left |
| Gravity.DropEffect | game.js:913-916 | Dropping one card into the empty cell below it keeps every column's cards in order and all cards on the board, and lowers the termination measure |
| Gravity.DropRow | game.js:912-918 | One sweep along a row drops cards without losing any; when nothing moves, no card in that row has an empty cell below it |
| Gravity.DropPass | game.js:910-919 | One pass over all rows keeps every column's cards; when nothing moves, no card on the board has an empty cell below it |
| Gravity.SettledColumnsArePacked | game.js:907-921 | A board with the same column contents in which no card has an empty cell below it is the bottom-packed board |
| Gravity.SlideDown | game.js:907-921 | Level 3 ends with every column packed to the bottom and the same cards on the board |
| Gravity.RowPackingKeepsCards | game.js:891-937 | Packing rows left or right keeps the grid's shape and the multiset of cards |
| Gravity.PostMatch | game.js:889-942 | Levels 2, 3 and 4 slide right, down and left, every other level leaves the board unchanged, and no slide adds or loses a card |
| Gravity.AfterMatchIdempotent | game.js:889-942 | Applying a level's slide a second time changes nothing |
| PathFinding.StepDirSpec | game.js:206-211 | Recovers the direction index (0 up, 1 right, 2 down, 3 left) of a unit step, and gives -1 exactly when the two points are not orthogonal neighbours |
| PathFinding.TurnsExtend | game.js:254-255 | A step in direction d makes d the last direction and adds one direction change exactly when a different earlier direction existed |
| PathFinding.TurnsReverse | game.js:254-255 | A walk taken backwards is still a walk and makes the same number of direction changes |
| PathFinding.ExpandFrom | game.js:245-271 | The nodes pushed for one dequeued node are exactly its allowed successors: inside the margin, at most two direction changes, and outside the board, empty or the target. Each one carries the path extended by its position |
| PathFinding.NoPathFromClosedSet | game.js:231-277 | A set of visited states that contains the start, has no state at the target and contains every allowed successor of its states admits no admissible path, which is why an empty queue means null |
| PathFinding.FindPath | game.js:187-278 | Neighbours get the two-point path. Otherwise a path is returned exactly when an admissible path exists, and a returned path starts and ends at the two cards, moves by unit steps, turns at most twice, and passes only through empty or off-board cells within the margin |
| PathFinding.ConnectableSymmetric | game.js:187-278 | For two distinct cards, whether they can be joined does not depend on which one is the start |
| PathFinding.TopRowConnectable | game.js:251-262 | A top-row cell and any top-row cell to its right can be joined over the margin with two turns, whatever the board holds |
| Setup.CharacterCount | game.js:29-34 | Each difficulty uses between 1 and 26 characters, and only HARD uses all 26 |
| Setup.PairRun | game.js:117 | Each run of copies is even and between 2 and 8 |
| Setup.RunLength | game.js:117-127 | The copies pushed for one draw are an even number from 2 to 8, and are a single pair whenever the drawn run would pass the cell count |
| Setup.PushCopies | game.js:120-127 | The push loop appends exactly `count` copies of the character and raises its count by `count` |
| Setup.DealCards | game.js:113-133 | The card list is the sequence of runs the loop builds (character k mod n for draw k, each run as `RunLength` gives it) cut to rows × cols cards. With an even cell count nothing is cut and every character is paired. The runs themselves have every character paired. With an odd count exactly one card is cut, and the character of that cut card is left unpaired in the list. When the cell count exceeds 8 × (n − 1), every one of the n characters is dealt |
| Setup.RunsDealEvery | game.js:113-130 | Each run adds at most 8 cards, so when the cell count exceeds 8 × (n − 1) the run of every character starts before the cut |
| Setup.SwapKeeps | game.js:138 | Exchanging two entries keeps the same cards |
| Setup.Shuffle | game.js:136-139 | The Fisher–Yates shuffle returns a permutation of its input |
| Setup.FilledCell | game.js:142-148 | After the fill, the cell in row i and column j holds card i × cols + j |
| Setup.FillBoard | game.js:142-148 | The fill builds a rows × cols board whose cards, read row by row, are the shuffled list |
| Setup.InitializeBoard | game.js:104-149 | The dealt board is full of cards of the difficulty's characters. Every character is paired when rows × cols is even, and some character is unpaired when it is odd. When rows × cols exceeds 8 × (n − 1) for the difficulty's n characters, every one of them is on the board. The board holds exactly the first rows × cols cards of the runs the dealing loop builds (`DealtCards`), and those are all of the runs when rows × cols is even |
| Setup.EvenCells | game.js:735-737 | The column count grows by one exactly when rows × cols is odd, and the resulting cell count is even |
| Setup.NewGame | game.js:728-749 | A game started by the restart button is dealt on an even-cell board on which every character is paired. The board holds exactly the runs the dealing loop builds for that cell count (`DealtRuns`), with nothing cut |
| Game.PairRemovalKeepsParity | game.js:407-408 | Removing two copies of one character keeps the parity of every character's count |
| Game.Match | game.js:406-411 | A match empties both cells and then applies the level's slide, and the board loses exactly the two matched cards |
| Game.TryMatch | game.js:390-411 | The second click matches exactly when the cards are distinct, show the same character and can be joined. Otherwise the board is unchanged. Either way every character keeps the parity of its count, for a match applied at once (see Left out on the one-second delay) |
| Game.CheckGameComplete | game.js:603-616 | The game is complete exactly when no card is left on the board |
| Game.UnpairedNeverComplete | game.js:603-616 | A board on which some character has an odd count is not complete |

## Left out

- Drawing, confetti, floating scores, the path animation and the search visualisation (`drawBoard`, `drawPath`, `visualizeExploration`) are screen output and have no effect on the board.
- Turning mouse and touch coordinates into a cell (game.js:363-388) is left out. `Game.TryMatch` takes the two cells directly and requires them on the board, which is what the bounds check ensures.
- The `selectedCards` list is left out. `Game.TryMatch` starts from the state with one card selected. The first click only selects.
- The timer, `TIME_BONUS`, the score and the bonus points (game.js:413-437) are left out. They depend on the clock and do not affect the board.
- The one-second `setTimeout` between finding a path and clearing the cells (game.js:406-464) is left out. The model applies the match at once. In the program, `selectedCards` is emptied at once (game.js:466), while the two cards stay on the board for the second. During that second the player can select one of them again and match it with a third copy of the character (game.js:390-406), so three cards of one character are cleared. On levels 2-4 the later timer also clears the positions it captured, after the earlier timer's slide may have moved other cards into them. The parity claims of `Game.TryMatch`, `Game.UnpairedNeverComplete` and the finding below therefore hold only for matches applied one at a time.
- Level progression, the confirmation dialogs and the level names are left out. The level is a parameter of the match step.
- Saving settings to `localStorage`, canvas sizing and `parseInt` of the input fields are left out. Rows, columns and level are natural numbers or integers, and non-numeric or negative inputs are not modelled.
- `setDifficulty` (game.js:92-102) is left out because `initializeBoard` never calls it.
- A difficulty name outside the four keys makes `DIFFICULTY[...]` undefined and selects all 26 characters. The model's `Difficulty` type has only the four keys.
- Image paths and the image cache are left out. A character is its index.
- The null-board and missing-row guards of `checkGameComplete` are left out because the model's board is always a full grid.
- The `catch` branch around `findPath` (game.js:471-475) is left out. It catches more than drawing errors: see the next line.
- Every board in the model has exactly ROWS × COLS cells (`WellFormed`). The program does not keep that invariant. The rows and columns fields (game.js:783-789) change ROWS and COLS without dealing a new board. If ROWS then exceeds the board's length, `drawBoard` reads `board[i][j]` for a missing row (game.js:153-155) and throws a TypeError on every call. That includes its calls inside the click handler's `try` (game.js:403 and game.js:469), so no match happens. `findPath` also throws at `board[newY][newX]` (game.js:259), but only if its search reaches a missing row first. If ROWS or COLS shrinks, real cells beyond the new bounds count as off the board (game.js:258) and paths may run through them. The model covers only boards whose size matches ROWS and COLS.
- Setup.Shuffle: states that the result is a permutation, not that it is uniformly distributed. The random draws are parameters.
- PathFinding.FindPath: does not state which of several routes is returned. The game returns the first one in breadth-first order.

## Findings

| source | as written | input that shows it | evidently intended | confidence | as-written member | corrected member |
|---|---|---|---|---|---|---|
| game.js:783-789, game.js:990-995 | The rows and columns fields store their values directly. The level selector then restarts the game with them and skips the even-cell fix of game.js:735-737 | Type 3 rows and 3 columns, then pick another level. `initializeBoard` deals 9 cards, so one character is left with an odd count and the board cannot be cleared by matches applied one at a time | Every new game starts from an even cell count, as the restart button arranges | likely; not executed | Setup.InitializeBoard | Setup.NewGame |

=== FILE: board.dfy ===
/** The game board: a grid of ROWS rows of COLS cells, each empty or holding a card. */
module Board {

  /** Index of a character image; two cards match when they show the same character. */
  type CharId = nat

  /** A board cell; `Empty` stands for the game's `null`. */
  datatype Cell = Empty | Card(ch: CharId)

  /** A position: `x` is the column and `y` the row, so a cell is read as `g[y][x]`. */
  datatype Point = Point(x: int, y: int)

  type Grid = seq<seq<Cell>>

  /** The board has `rows` rows of `cols` cells each. */
  predicate WellFormed(g: Grid, rows: nat, cols: nat) {
    |g| == rows && forall i :: 0 <= i < |g| ==> |g[i]| == cols
  }

  predicate OnBoard(p: Point, rows: nat, cols: nat) {
    0 <= p.x < cols && 0 <= p.y < rows
  }

  function CellAt(g: Grid, rows: nat, cols: nat, p: Point): Cell
    requires WellFormed(g, rows, cols) && OnBoard(p, rows, cols)
  {
    g[p.y][p.x]
  }

  /** Empties one cell and leaves every other cell as it was. */
  function Clear(g: Grid, rows: nat, cols: nat, p: Point): (g': Grid)
    requires WellFormed(g, rows, cols) && OnBoard(p, rows, cols)
    ensures WellFormed(g', rows, cols)
    ensures CellAt(g', rows, cols, p) == Empty
    ensures forall q :: OnBoard(q, rows, cols) && q != p ==> CellAt(g', rows, cols, q) == CellAt(g, rows, cols, q)
  {
    g[p.y := g[p.y][p.x := Empty]]
  }

  /** The characters on the cards of a line, in order, skipping empty cells. */
  function Tiles(line: seq<Cell>): (ts: seq<CharId>)
    ensures |ts| <= |line|
  {
    if |line| == 0 then []
    else (if line[0].Card? then [line[0].ch] else []) + Tiles(line[1..])
  }

  lemma {:induction false} TilesAppend(a: seq<Cell>, b: seq<Cell>)
    ensures Tiles(a + b) == Tiles(a) + Tiles(b)
    decreases |a|
  {
    if |a| > 0 {
      assert (a + b)[1..] == a[1..] + b;
      TilesAppend(a[1..], b);
    } else {
      assert a + b == b;
    }
  }

  /** Emptying a card's cell removes exactly that card from the line. */
  lemma TilesClearCell(line: seq<Cell>, c: nat)
    requires c < |line| && line[c].Card?
    ensures multiset(Tiles(line[c := Empty])) + multiset{line[c].ch} == multiset(Tiles(line))
  {
    assert line == line[..c] + [line[c]] + line[c + 1..];
    assert line[c := Empty] == line[..c] + [Empty] + line[c + 1..];
    TilesAppend(line[..c] + [line[c]], line[c + 1..]);
    TilesAppend(line[..c], [line[c]]);
    TilesAppend(line[..c] + [Empty], line[c + 1..]);
    TilesAppend(line[..c], [Empty]);
  }

  /** Placing a card in an empty cell adds exactly that card to the line. */
  lemma TilesFillCell(line: seq<Cell>, c: nat, t: CharId)
    requires c < |line| && line[c] == Empty
    ensures multiset(Tiles(line[c := Card(t)])) == multiset(Tiles(line)) + multiset{t}
  {
    assert line == line[..c] + [line[c]] + line[c + 1..];
    assert line[c := Card(t)] == line[..c] + [Card(t)] + line[c + 1..];
    TilesAppend(line[..c] + [line[c]], line[c + 1..]);
    TilesAppend(line[..c], [line[c]]);
    TilesAppend(line[..c] + [Card(t)], line[c + 1..]);
    TilesAppend(line[..c], [Card(t)]);
  }

  /** The characters on the board in row-major order. */
  function RowMajorTiles(g: Grid): seq<CharId> {
    if |g| == 0 then [] else Tiles(g[0]) + RowMajorTiles(g[1..])
  }

  /** The multiset of characters still on the board. */
  function BoardTiles(g: Grid): multiset<CharId> {
    multiset(RowMajorTiles(g))
  }

  lemma {:induction false} RowMajorAppend(a: Grid, b: Grid)
    ensures RowMajorTiles(a + b) == RowMajorTiles(a) + RowMajorTiles(b)
    decreases |a|
  {
    if |a| > 0 {
      assert (a + b)[1..] == a[1..] + b;
      RowMajorAppend(a[1..], b);
    } else {
      assert a + b == b;
    }
  }

  /** Replacing one row changes the board's cards by exactly the change of that row's cards. */
  lemma BoardTilesUpdate(g: Grid, r: nat, x: seq<Cell>)
    requires r < |g|
    ensures BoardTiles(g[r := x]) + multiset(Tiles(g[r])) == BoardTiles(g) + multiset(Tiles(x))
  {
    assert g == g[..r] + [g[r]] + g[r + 1..];
    assert g[r := x] == g[..r] + [x] + g[r + 1..];
    RowMajorAppend(g[..r] + [g[r]], g[r + 1..]);
    RowMajorAppend(g[..r], [g[r]]);
    RowMajorAppend(g[..r] + [x], g[r + 1..]);
    RowMajorAppend(g[..r], [x]);
    assert RowMajorTiles([g[r]]) == Tiles(g[r]);
    assert RowMajorTiles([x]) == Tiles(x);
  }

  /** Two boards whose rows hold the same cards, row for row, hold the same cards in row-major order. */
  lemma {:induction false} SameRowTiles(g: Grid, h: Grid)
    requires |g| == |h| && forall i :: 0 <= i < |g| ==> Tiles(g[i]) == Tiles(h[i])
    ensures RowMajorTiles(g) == RowMajorTiles(h)
    decreases |g|
  {
    if |g| > 0 {
      SameRowTiles(g[1..], h[1..]);
    }
  }

  lemma Cancel<T>(a: multiset<T>, b: multiset<T>, m: multiset<T>, t: multiset<T>)
    requires a + (m + t) == b + m
    ensures a + t == b
  {
    forall c
      ensures (a + t)[c] == b[c]
    {
      assert (a + (m + t))[c] == (b + m)[c];
    }
  }

  /** Clearing a card removes exactly one copy of its character from the board. */
  lemma ClearRemovesCard(g: Grid, rows: nat, cols: nat, p: Point)
    requires WellFormed(g, rows, cols) && OnBoard(p, rows, cols) && CellAt(g, rows, cols, p).Card?
    ensures BoardTiles(Clear(g, rows, cols, p)) + multiset{CellAt(g, rows, cols, p).ch} == BoardTiles(g)
  {
    var row' := g[p.y][p.x := Empty];
    BoardTilesUpdate(g, p.y, row');
    TilesClearCell(g[p.y], p.x);
    Cancel(BoardTiles(g[p.y := row']), BoardTiles(g), multiset(Tiles(row')), multiset{g[p.y][p.x].ch});
  }

  /** Putting a card into an empty cell adds exactly one copy of its character to the board. */
  lemma FillAddsCard(g: Grid, rows: nat, cols: nat, p: Point, t: CharId)
    requires WellFormed(g, rows, cols) && OnBoard(p, rows, cols) && CellAt(g, rows, cols, p) == Empty
    ensures BoardTiles(g[p.y := g[p.y][p.x := Card(t)]]) == BoardTiles(g) + multiset{t}
  {
    var row' := g[p.y][p.x := Card(t)];
    var before := BoardTiles(g[p.y := row']);
    BoardTilesUpdate(g, p.y, row');
    TilesFillCell(g[p.y], p.x, t);
    forall c
      ensures before[c] == (BoardTiles(g) + multiset{t})[c]
    {
      assert (before + multiset(Tiles(g[p.y])))[c] == (BoardTiles(g) + multiset(Tiles(row')))[c];
    }
  }

  /** True iff every cell of every row is empty (checkGameComplete). */
  method IsComplete(g: Grid) returns (done: bool)
    ensures done <==> forall i, j :: 0 <= i < |g| && 0 <= j < |g[i]| ==> g[i][j] == Empty
  {
    var i := 0;
    while i < |g|
      invariant 0 <= i <= |g|
      invariant forall a, b :: 0 <= a < i && 0 <= b < |g[a]| ==> g[a][b] == Empty
    {
      var j := 0;
      while j < |g[i]|
        invariant 0 <= j <= |g[i]|
        invariant forall b :: 0 <= b < j ==> g[i][b] == Empty
      {
        if g[i][j] != Empty {
          return false;
        }
        j := j + 1;
      }
      i := i + 1;
    }
    return true;
  }

  lemma {:induction false} NoCardsInLine(line: seq<Cell>)
    ensures Tiles(line) == [] <==> forall j :: 0 <= j < |line| ==> line[j] == Empty
    decreases |line|
  {
    if |line| > 0 {
      NoCardsInLine(line[1..]);
      assert forall j :: 1 <= j < |line| ==> line[j] == line[1..][j - 1];
    }
  }

  /** A board is complete exactly when no card is left on it. */
  lemma {:induction false} CompleteIffNoCards(g: Grid)
    ensures (forall i, j :: 0 <= i < |g| && 0 <= j < |g[i]| ==> g[i][j] == Empty) <==> BoardTiles(g) == multiset{}
    decreases |g|
  {
    if |g| > 0 {
      CompleteIffNoCards(g[1..]);
      NoCardsInLine(g[0]);
      assert forall i :: 1 <= i < |g| ==> g[i] == g[1..][i - 1];
      assert BoardTiles(g) == multiset(Tiles(g[0])) + BoardTiles(g[1..]);
    }
  }
}

=== FILE: game.dfy ===
/**
 * One move of the game: the player has selected a card and clicks a second one. Two
 * distinct cards showing the same character that findPath can join are removed, and the
 * level's slide is applied to the board.
 */
module Game {
  import opened Board
  import opened Gravity
  import opened PathFinding

  /**
   * Removing a matched pair: both cells are emptied, then the level's slide runs. Exactly
   * the two cards of the pair leave the board.
   */
  method Match(level: int, g: Grid, rows: nat, cols: nat, a: Point, b: Point) returns (after: Grid)
    requires WellFormed(g, rows, cols) && OnBoard(a, rows, cols) && OnBoard(b, rows, cols) && a != b
    requires CellAt(g, rows, cols, a).Card? && CellAt(g, rows, cols, a) == CellAt(g, rows, cols, b)
    ensures WellFormed(after, rows, cols)
    ensures after == AfterMatch(level, Clear(Clear(g, rows, cols, a), rows, cols, b), rows, cols)
    ensures BoardTiles(after) + multiset{CellAt(g, rows, cols, a).ch, CellAt(g, rows, cols, a).ch} == BoardTiles(g)
  {
    var t := CellAt(g, rows, cols, a).ch;
    var g1 := Clear(g, rows, cols, a);
    ClearRemovesCard(g, rows, cols, a);
    var g2 := Clear(g1, rows, cols, b);
    ClearRemovesCard(g1, rows, cols, b);
    after := PostMatch(level, g2, rows, cols);
    assert BoardTiles(g) == BoardTiles(g2) + multiset{t} + multiset{t};
  }

  /** Removing a pair keeps the parity of every character's count. */
  lemma PairRemovalKeepsParity(before: multiset<CharId>, after: multiset<CharId>, t: CharId)
    requires after + multiset{t, t} == before
    ensures forall c :: after[c] % 2 == before[c] % 2
  {
    forall c
      ensures after[c] % 2 == before[c] % 2
    {
      assert before[c] == after[c] + multiset{t, t}[c];
    }
  }

  /**
   * The click on a second card while `first` is selected. Clicking the selected card again
   * only deselects it; two cards with the same character are matched when findPath joins
   * them; in every other case the board is left as it was.
   */
  method TryMatch(level: int, g: Grid, rows: nat, cols: nat, first: Point, second: Point)
    returns (after: Grid, matched: bool)
    requires WellFormed(g, rows, cols) && OnBoard(first, rows, cols) && OnBoard(second, rows, cols)
    requires CellAt(g, rows, cols, first).Card? && CellAt(g, rows, cols, second).Card?
    ensures WellFormed(after, rows, cols)
    ensures matched <==> first != second && CellAt(g, rows, cols, first) == CellAt(g, rows, cols, second)
                         && Connectable(g, rows, cols, first, second)
    ensures matched ==> after == AfterMatch(level, Clear(Clear(g, rows, cols, first), rows, cols, second), rows, cols)
    ensures matched ==> BoardTiles(after) + multiset{CellAt(g, rows, cols, first).ch, CellAt(g, rows, cols, first).ch} == BoardTiles(g)
    ensures !matched ==> after == g
    ensures forall c :: BoardTiles(after)[c] % 2 == BoardTiles(g)[c] % 2
  {
    if first == second {
      return g, false;
    }
    if CellAt(g, rows, cols, first) != CellAt(g, rows, cols, second) {
      return g, false;
    }
    var path := FindPath(g, rows, cols, first, second);
    if path.None? {
      return g, false;
    }
    after := Match(level, g, rows, cols, first, second);
    matched := true;
    PairRemovalKeepsParity(BoardTiles(g), BoardTiles(after), CellAt(g, rows, cols, first).ch);
  }

  /** checkGameComplete holds on a board exactly when no card is left on it. */
  method CheckGameComplete(g: Grid) returns (done: bool)
    ensures done <==> BoardTiles(g) == multiset{}
  {
    done := IsComplete(g);
    CompleteIffNoCards(g);
  }

  /**
   * A board with a character of odd count is not complete, and no move changes that: the
   * character keeps an odd count after every TryMatch, so such a board cannot be cleared
   * by matches applied one at a time.
   */
  lemma UnpairedNeverComplete(g: Grid, c: CharId)
    requires BoardTiles(g)[c] % 2 == 1
    ensures !(forall i, j :: 0 <= i < |g| && 0 <= j < |g[i]| ==> g[i][j] == Empty)
  {
    CompleteIffNoCards(g);
  }
}

=== FILE: gravity.dfy ===
/**
 * The post-match behaviours of levels 2-4: after a match the remaining cards slide right
 * along their row, down along their column, or left along their row, one empty cell at a
 * time, until nothing moves. Each imperative slide is proved equal to a functional
 * reference that packs every line toward one edge.
 */
module Gravity {
  import opened Board
  import opened Lines

  /** Every row packed toward its right end (level 2). */
  function RightPacked(g: Grid): Grid {
    seq(|g|, i requires 0 <= i < |g| => PackTowardEnd(g[i]))
  }

  /** Every row packed toward its left end (level 4). */
  function LeftPacked(g: Grid): Grid {
    seq(|g|, i requires 0 <= i < |g| => PackTowardStart(g[i]))
  }

  /** Column c, top to bottom. */
  function Column(g: Grid, c: nat): seq<Cell> {
    seq(|g|, i requires 0 <= i < |g| => if c < |g[i]| then g[i][c] else Empty)
  }

  /** Every column packed toward its bottom end (level 3). */
  function BottomPacked(g: Grid, rows: nat, cols: nat): Grid
    requires WellFormed(g, rows, cols)
  {
    seq(rows, r requires 0 <= r < rows =>
      seq(cols, c requires 0 <= c < cols => PackTowardEnd(Column(g, c))[r]))
  }

  /** The board after the post-match behaviour of `level`; levels other than 2, 3, 4 leave it alone. */
  function AfterMatch(level: int, g: Grid, rows: nat, cols: nat): Grid
    requires WellFormed(g, rows, cols)
  {
    if level == 2 then RightPacked(g)
    else if level == 3 then BottomPacked(g, rows, cols)
    else if level == 4 then LeftPacked(g)
    else g
  }

  // ---------------------------------------------------------------------------
  // Sliding one row (levels 2 and 4)
  // ---------------------------------------------------------------------------

  /**
   * Level 2 on one row: repeat a pass from the right-hand end, moving each card into an
   * empty cell on its right, until a pass moves nothing.
   */
  method SettleRight(line: seq<Cell>) returns (out: seq<Cell>)
    ensures out == PackTowardEnd(line)
  {
    out := line;
    var hasChanges := true;
    while hasChanges
      invariant |out| == |line| && Tiles(out) == Tiles(line)
      invariant !hasChanges ==> SettledTowardEnd(out)
      decreases IndexSum(out, 0, true) + (if hasChanges then 1 else 0)
    {
      hasChanges := false;
      ghost var start := out;
      var col := |out| - 2;
      while col >= 0
        invariant -2 <= col <= |out| - 2
        invariant |out| == |line| && Tiles(out) == Tiles(line)
        invariant hasChanges ==> IndexSum(out, 0, true) < IndexSum(start, 0, true)
        invariant !hasChanges ==> out == start
        invariant !hasChanges ==> forall c :: 0 <= c && col < c < |out| - 1 ==> !(out[c].Card? && out[c + 1].Empty?)
      {
        if out[col].Card? && out[col + 1].Empty? {
          MoveTowardEnd(out, col);
          out := out[col + 1 := out[col]][col := Empty];
          hasChanges := true;
        }
        col := col - 1;
      }
    }
    PackTowardEndUnique(line, out);
  }

  /**
   * Level 4 on one row: repeat a pass from the left-hand end, moving each card into an
   * empty cell on its left, until a pass moves nothing.
   */
  method SettleLeft(line: seq<Cell>) returns (out: seq<Cell>)
    ensures out == PackTowardStart(line)
  {
    out := line;
    var hasChanges := true;
    while hasChanges
      invariant |out| == |line| && Tiles(out) == Tiles(line)
      invariant !hasChanges ==> SettledTowardStart(out)
      decreases IndexSum(out, 0, false) + (if hasChanges then 1 else 0)
    {
      hasChanges := false;
      ghost var start := out;
      var col := 1;
      while col < |out|
        invariant 1 <= col <= |out| || (|out| == 0 && col == 1)
        invariant |out| == |line| && Tiles(out) == Tiles(line)
        invariant hasChanges ==> IndexSum(out, 0, false) < IndexSum(start, 0, false)
        invariant !hasChanges ==> out == start
        invariant !hasChanges ==> forall c :: 0 <= c < col - 1 ==> !(out[c].Empty? && out[c + 1].Card?)
      {
        if out[col].Card? && out[col - 1].Empty? {
          MoveTowardStart(out, col - 1);
          out := out[col - 1 := out[col]][col := Empty];
          hasChanges := true;
        }
        col := col + 1;
      }
    }
    PackTowardStartUnique(line, out);
  }

  /** Level 2: every row slides right on its own. */
  method SlideRight(g: Grid, rows: nat, cols: nat) returns (b: Grid)
    requires WellFormed(g, rows, cols)
    ensures b == RightPacked(g)
  {
    b := g;
    var row := 0;
    while row < rows
      invariant 0 <= row <= rows && |b| == rows
      invariant forall i :: 0 <= i < row ==> b[i] == PackTowardEnd(g[i])
      invariant forall i :: row <= i < rows ==> b[i] == g[i]
    {
      var line := SettleRight(b[row]);
      b := b[row := line];
      row := row + 1;
    }
  }

  /** Level 4: every row slides left on its own. */
  method SlideLeft(g: Grid, rows: nat, cols: nat) returns (b: Grid)
    requires WellFormed(g, rows, cols)
    ensures b == LeftPacked(g)
  {
    b := g;
    var row := 0;
    while row < rows
      invariant 0 <= row <= rows && |b| == rows
      invariant forall i :: 0 <= i < row ==> b[i] == PackTowardStart(g[i])
      invariant forall i :: row <= i < rows ==> b[i] == g[i]
    {
      var line := SettleLeft(b[row]);
      b := b[row := line];
      row := row + 1;
    }
  }

  // ---------------------------------------------------------------------------
  // Sliding down the columns (level 3)
  // ---------------------------------------------------------------------------

  /** Moves the card at (row r, column c) into the empty cell below it. */
  function Drop(g: Grid, r: nat, c: nat): Grid
    requires r + 1 < |g| && c < |g[r]| && c < |g[r + 1]|
  {
    g[r := g[r][c := Empty]][r + 1 := g[r + 1][c := g[r][c]]]
  }

  /** Sum over the first n columns of the index sums of their empty cells. */
  function ColumnsSum(g: Grid, n: nat): nat {
    if n == 0 then 0 else ColumnsSum(g, n - 1) + IndexSum(Column(g, n - 1), 0, true)
  }

  lemma {:induction false} ColumnsSumOneLower(g: Grid, h: Grid, c: nat, n: nat)
    requires forall c' :: 0 <= c' < n && c' != c ==> Column(h, c') == Column(g, c')
    requires IndexSum(Column(h, c), 0, true) < IndexSum(Column(g, c), 0, true)
    ensures c < n ==> ColumnsSum(h, n) < ColumnsSum(g, n)
    ensures n <= c ==> ColumnsSum(h, n) == ColumnsSum(g, n)
    decreases n
  {
    if n > 0 {
      ColumnsSumOneLower(g, h, c, n - 1);
    }
  }

  /** A drop changes column c as one move toward the bottom and leaves every other column alone. */
  lemma DropColumns(g: Grid, rows: nat, cols: nat, r: nat, c: nat)
    requires WellFormed(g, rows, cols) && r + 1 < rows && c < cols
    ensures WellFormed(Drop(g, r, c), rows, cols)
    ensures Column(Drop(g, r, c), c) == Column(g, c)[r + 1 := Column(g, c)[r]][r := Empty]
    ensures forall c' :: 0 <= c' < cols && c' != c ==> Column(Drop(g, r, c), c') == Column(g, c')
  {
    var h := Drop(g, r, c);
    forall c' | 0 <= c' < cols && c' != c
      ensures Column(h, c') == Column(g, c')
    {
    }
  }

  /** A drop moves one card from row r to row r + 1, so the board keeps its cards. */
  lemma DropKeepsBoardTiles(g: Grid, rows: nat, cols: nat, r: nat, c: nat)
    requires WellFormed(g, rows, cols) && r + 1 < rows && c < cols
    requires g[r][c].Card? && g[r + 1][c].Empty?
    ensures BoardTiles(Drop(g, r, c)) == BoardTiles(g)
  {
    var t := g[r][c].ch;
    var g1 := Clear(g, rows, cols, Point(c, r));
    ClearRemovesCard(g, rows, cols, Point(c, r));
    FillAddsCard(g1, rows, cols, Point(c, r + 1), t);
    assert Drop(g, r, c) == g1[r + 1 := g1[r + 1][c := Card(t)]];
  }

  /** A drop keeps the board's shape and cards, keeps every column's cards in order, and lowers ColumnsSum. */
  lemma DropEffect(g: Grid, rows: nat, cols: nat, r: nat, c: nat)
    requires WellFormed(g, rows, cols) && r + 1 < rows && c < cols
    requires g[r][c].Card? && g[r + 1][c].Empty?
    ensures WellFormed(Drop(g, r, c), rows, cols)
    ensures forall c' :: 0 <= c' < cols ==> Tiles(Column(Drop(g, r, c), c')) == Tiles(Column(g, c'))
    ensures ColumnsSum(Drop(g, r, c), cols) < ColumnsSum(g, cols)
    ensures BoardTiles(Drop(g, r, c)) == BoardTiles(g)
  {
    DropColumns(g, rows, cols, r, c);
    MoveTowardEnd(Column(g, c), r);
    ColumnsSumOneLower(g, Drop(g, r, c), c, cols);
    DropKeepsBoardTiles(g, rows, cols, r, c);
  }

  /** Scans one row left to right, dropping every card that has an empty cell below it. */
  method DropRow(g: Grid, rows: nat, cols: nat, row: nat) returns (b: Grid, changed: bool)
    requires WellFormed(g, rows, cols) && row + 1 < rows
    ensures WellFormed(b, rows, cols)
    ensures forall c :: 0 <= c < cols ==> Tiles(Column(b, c)) == Tiles(Column(g, c))
    ensures BoardTiles(b) == BoardTiles(g)
    ensures changed ==> ColumnsSum(b, cols) < ColumnsSum(g, cols)
    ensures !changed ==> b == g
    ensures !changed ==> forall c :: 0 <= c < cols ==> !(g[row][c].Card? && g[row + 1][c].Empty?)
  {
    b := g;
    changed := false;
    var col := 0;
    while col < cols
      invariant 0 <= col <= cols
      invariant WellFormed(b, rows, cols)
      invariant forall c :: 0 <= c < cols ==> Tiles(Column(b, c)) == Tiles(Column(g, c))
      invariant BoardTiles(b) == BoardTiles(g)
      invariant changed ==> ColumnsSum(b, cols) < ColumnsSum(g, cols)
      invariant !changed ==> b == g
      invariant !changed ==> forall c :: 0 <= c < col ==> !(g[row][c].Card? && g[row + 1][c].Empty?)
    {
      if b[row][col].Card? && b[row + 1][col].Empty? {
        DropEffect(b, rows, cols, row, col);
        b := Drop(b, row, col);
        changed := true;
      }
      col := col + 1;
    }
  }

  /** One pass of level 3: rows from the second-to-last up to the first. */
  method DropPass(g: Grid, rows: nat, cols: nat) returns (b: Grid, changed: bool)
    requires WellFormed(g, rows, cols)
    ensures WellFormed(b, rows, cols)
    ensures forall c :: 0 <= c < cols ==> Tiles(Column(b, c)) == Tiles(Column(g, c))
    ensures BoardTiles(b) == BoardTiles(g)
    ensures changed ==> ColumnsSum(b, cols) < ColumnsSum(g, cols)
    ensures !changed ==> b == g
    ensures !changed ==> forall r, c :: 0 <= r < rows - 1 && 0 <= c < cols ==> !(g[r][c].Card? && g[r + 1][c].Empty?)
  {
    b := g;
    changed := false;
    var row := rows - 2;
    while row >= 0
      invariant -2 <= row <= rows - 2
      invariant WellFormed(b, rows, cols)
      invariant forall c :: 0 <= c < cols ==> Tiles(Column(b, c)) == Tiles(Column(g, c))
      invariant BoardTiles(b) == BoardTiles(g)
      invariant changed ==> ColumnsSum(b, cols) < ColumnsSum(g, cols)
      invariant !changed ==> b == g
      invariant !changed ==> forall r, c :: 0 <= r && row < r < rows - 1 && 0 <= c < cols ==> !(g[r][c].Card? && g[r + 1][c].Empty?)
    {
      var rowChanged;
      b, rowChanged := DropRow(b, rows, cols, row);
      changed := changed || rowChanged;
      row := row - 1;
    }
  }

  /** Level 3: repeat whole-board passes until one moves nothing. */
  method SlideDown(g: Grid, rows: nat, cols: nat) returns (b: Grid)
    requires WellFormed(g, rows, cols)
    ensures b == BottomPacked(g, rows, cols)
    ensures BoardTiles(b) == BoardTiles(g)
  {
    b := g;
    var hasChanges := true;
    while hasChanges
      invariant WellFormed(b, rows, cols)
      invariant forall c :: 0 <= c < cols ==> Tiles(Column(b, c)) == Tiles(Column(g, c))
      invariant BoardTiles(b) == BoardTiles(g)
      invariant !hasChanges ==> forall r, c :: 0 <= r < rows - 1 && 0 <= c < cols ==> !(b[r][c].Card? && b[r + 1][c].Empty?)
      decreases ColumnsSum(b, cols) + (if hasChanges then 1 else 0)
    {
      b, hasChanges := DropPass(b, rows, cols);
    }
    SettledColumnsArePacked(g, b, rows, cols);
  }

  /** A board whose columns keep g's cards and let nothing fall further is g with every column packed down. */
  lemma SettledColumnsArePacked(g: Grid, b: Grid, rows: nat, cols: nat)
    requires WellFormed(g, rows, cols) && WellFormed(b, rows, cols)
    requires forall c :: 0 <= c < cols ==> Tiles(Column(b, c)) == Tiles(Column(g, c))
    requires forall r, c :: 0 <= r < rows - 1 && 0 <= c < cols ==> !(b[r][c].Card? && b[r + 1][c].Empty?)
    ensures b == BottomPacked(g, rows, cols)
  {
    var p := BottomPacked(g, rows, cols);
    forall c | 0 <= c < cols
      ensures Column(b, c) == PackTowardEnd(Column(g, c))
    {
      var col := Column(b, c);
      assert SettledTowardEnd(col) by {
        forall r | 0 <= r < |col| - 1
          ensures !(col[r].Card? && col[r + 1].Empty?)
        {
          assert col[r] == b[r][c] && col[r + 1] == b[r + 1][c];
        }
      }
      PackTowardEndUnique(Column(g, c), col);
    }
    forall r | 0 <= r < rows
      ensures b[r] == p[r]
    {
      forall c | 0 <= c < cols
        ensures b[r][c] == p[r][c]
      {
        assert b[r][c] == Column(b, c)[r];
      }
    }
  }

  /** Columns of a board packed down are the packed columns. */
  lemma ColumnsOfBottomPacked(g: Grid, rows: nat, cols: nat, c: nat)
    requires WellFormed(g, rows, cols) && c < cols
    ensures WellFormed(BottomPacked(g, rows, cols), rows, cols)
    ensures Column(BottomPacked(g, rows, cols), c) == PackTowardEnd(Column(g, c))
  {
  }

  // ---------------------------------------------------------------------------
  // The post-match dispatch
  // ---------------------------------------------------------------------------

  /** Packing the rows keeps each row's cards, so the board keeps its cards. */
  lemma RowPackingKeepsCards(g: Grid, rows: nat, cols: nat)
    requires WellFormed(g, rows, cols)
    ensures WellFormed(RightPacked(g), rows, cols) && WellFormed(LeftPacked(g), rows, cols)
    ensures BoardTiles(RightPacked(g)) == BoardTiles(g)
    ensures BoardTiles(LeftPacked(g)) == BoardTiles(g)
  {
    forall i | 0 <= i < |g|
      ensures Tiles(RightPacked(g)[i]) == Tiles(g[i]) && Tiles(LeftPacked(g)[i]) == Tiles(g[i])
    {
      PackTowardEndKeeps(g[i]);
      PackTowardStartKeeps(g[i]);
    }
    SameRowTiles(RightPacked(g), g);
    SameRowTiles(LeftPacked(g), g);
  }

  /**
   * handlePostMatchBehavior: level 2 slides right, 3 down, 4 left, any other level does
   * nothing. The board keeps its shape and its multiset of cards.
   */
  method PostMatch(level: int, g: Grid, rows: nat, cols: nat) returns (b: Grid)
    requires WellFormed(g, rows, cols)
    ensures b == AfterMatch(level, g, rows, cols)
    ensures WellFormed(b, rows, cols)
    ensures BoardTiles(b) == BoardTiles(g)
  {
    if level == 2 {
      b := SlideRight(g, rows, cols);
      RowPackingKeepsCards(g, rows, cols);
    } else if level == 3 {
      b := SlideDown(g, rows, cols);
    } else if level == 4 {
      b := SlideLeft(g, rows, cols);
      RowPackingKeepsCards(g, rows, cols);
    } else {
      b := g;
    }
  }

  /** Applying the same post-match behaviour a second time changes nothing. */
  lemma AfterMatchIdempotent(level: int, g: Grid, rows: nat, cols: nat)
    requires WellFormed(g, rows, cols)
    ensures WellFormed(AfterMatch(level, g, rows, cols), rows, cols)
    ensures AfterMatch(level, AfterMatch(level, g, rows, cols), rows, cols) == AfterMatch(level, g, rows, cols)
  {
    if level == 2 {
      RowPackingKeepsCards(g, rows, cols);
      var p := RightPacked(g);
      forall i | 0 <= i < rows
        ensures PackTowardEnd(p[i]) == p[i]
      {
        PackTowardEndIdempotent(g[i]);
      }
    } else if level == 3 {
      var p := BottomPacked(g, rows, cols);
      forall c | 0 <= c < cols
        ensures PackTowardEnd(Column(p, c)) == Column(p, c)
      {
        ColumnsOfBottomPacked(g, rows, cols, c);
        PackTowardEndIdempotent(Column(g, c));
      }
      var q := BottomPacked(p, rows, cols);
      forall r | 0 <= r < rows
        ensures q[r] == p[r]
      {
        forall c | 0 <= c < cols
          ensures q[r][c] == p[r][c]
        {
          assert p[r][c] == Column(p, c)[r];
        }
      }
    } else if level == 4 {
      RowPackingKeepsCards(g, rows, cols);
      var p := LeftPacked(g);
      forall i | 0 <= i < rows
        ensures PackTowardStart(p[i]) == p[i]
      {
        PackTowardStartIdempotent(g[i]);
      }
    }
  }
}

=== FILE: lines.dfy ===
/** One row or column of the board, and what it means for its cards to have slid to one end. */
module Lines {
  import opened Board

  function Nones(m: nat): seq<Cell> {
    seq(m, _ => Empty)
  }

  function Cards(ts: seq<CharId>): seq<Cell> {
    seq(|ts|, i requires 0 <= i < |ts| => Card(ts[i]))
  }

  /** No card has an empty cell right after it: nothing can slide toward the end. */
  predicate SettledTowardEnd(line: seq<Cell>) {
    forall i :: 0 <= i < |line| - 1 ==> !(line[i].Card? && line[i + 1].Empty?)
  }

  /** No card has an empty cell right before it: nothing can slide toward the start. */
  predicate SettledTowardStart(line: seq<Cell>) {
    forall i :: 0 <= i < |line| - 1 ==> !(line[i].Empty? && line[i + 1].Card?)
  }

  /** The line's cards, in their order, against the end, with all empty cells before them. */
  function PackTowardEnd(line: seq<Cell>): (r: seq<Cell>)
    ensures |r| == |line|
  {
    Nones(|line| - |Tiles(line)|) + Cards(Tiles(line))
  }

  /** The line's cards, in their order, against the start, with all empty cells after them. */
  function PackTowardStart(line: seq<Cell>): (r: seq<Cell>)
    ensures |r| == |line|
  {
    Cards(Tiles(line)) + Nones(|line| - |Tiles(line)|)
  }

  lemma {:induction false} TilesOfNones(m: nat)
    ensures Tiles(Nones(m)) == []
    decreases m
  {
    if m > 0 {
      assert Nones(m)[1..] == Nones(m - 1);
      TilesOfNones(m - 1);
    }
  }

  lemma {:induction false} TilesOfCards(ts: seq<CharId>)
    ensures Tiles(Cards(ts)) == ts
    decreases |ts|
  {
    if |ts| > 0 {
      assert Cards(ts)[1..] == Cards(ts[1..]);
      TilesOfCards(ts[1..]);
    }
  }

  /** Packing keeps the cards and their order, and leaves nothing that could slide further. */
  lemma PackTowardEndKeeps(line: seq<Cell>)
    ensures Tiles(PackTowardEnd(line)) == Tiles(line)
    ensures SettledTowardEnd(PackTowardEnd(line))
  {
    var ts := Tiles(line);
    var m := |line| - |ts|;
    TilesAppend(Nones(m), Cards(ts));
    TilesOfNones(m);
    TilesOfCards(ts);
  }

  lemma PackTowardStartKeeps(line: seq<Cell>)
    ensures Tiles(PackTowardStart(line)) == Tiles(line)
    ensures SettledTowardStart(PackTowardStart(line))
  {
    var ts := Tiles(line);
    var m := |line| - |ts|;
    TilesAppend(Cards(ts), Nones(m));
    TilesOfNones(m);
    TilesOfCards(ts);
  }

  /** Dropping the first cell of a settled line leaves a settled line. */
  lemma SettledTail(line: seq<Cell>)
    requires |line| > 0
    ensures SettledTowardEnd(line) ==> SettledTowardEnd(line[1..])
    ensures SettledTowardStart(line) ==> SettledTowardStart(line[1..])
  {
    var tail := line[1..];
    if SettledTowardEnd(line) {
      forall i | 0 <= i < |tail| - 1
        ensures !(tail[i].Card? && tail[i + 1].Empty?)
      {
        assert tail[i] == line[i + 1] && tail[i + 1] == line[i + 2];
      }
    }
    if SettledTowardStart(line) {
      forall i | 0 <= i < |tail| - 1
        ensures !(tail[i].Empty? && tail[i + 1].Card?)
      {
        assert tail[i] == line[i + 1] && tail[i + 1] == line[i + 2];
      }
    }
  }

  lemma CardsCons(t: CharId, ts: seq<CharId>)
    ensures Cards([t] + ts) == [Card(t)] + Cards(ts)
  {
    var a := Cards([t] + ts);
    var b := [Card(t)] + Cards(ts);
    forall i | 0 <= i < |a|
      ensures a[i] == b[i]
    {
      if i > 0 {
        assert ([t] + ts)[i] == ts[i - 1];
      }
    }
  }

  /** The cards of a line that starts with a card: that card, then the cards of the rest. */
  lemma CardHead(line: seq<Cell>)
    requires |line| > 0 && line[0].Card?
    ensures Cards(Tiles(line)) == [line[0]] + Cards(Tiles(line[1..]))
    ensures line == [line[0]] + line[1..]
  {
    assert Tiles(line) == [line[0].ch] + Tiles(line[1..]);
    CardsCons(line[0].ch, Tiles(line[1..]));
  }

  /** An empty cell in front of a packed-to-the-end line keeps it packed to the end. */
  lemma EmptyHeadAtEnd(line: seq<Cell>)
    requires |line| > 0 && line[0].Empty? && line[1..] == PackTowardEnd(line[1..])
    ensures line == PackTowardEnd(line)
  {
    var tail := line[1..];
    var m := |tail| - |Tiles(tail)|;
    assert line == [Empty] + tail;
    assert Nones(m + 1) == [Empty] + Nones(m);
  }

  /** A settled line starting with a card whose rest is packed to the end has no empty cell at all. */
  lemma CardHeadAtEnd(line: seq<Cell>)
    requires |line| > 0 && line[0].Card? && SettledTowardEnd(line) && line[1..] == PackTowardEnd(line[1..])
    ensures line == PackTowardEnd(line)
  {
    var tail := line[1..];
    if |tail| - |Tiles(tail)| > 0 {
      assert false;
    }
    CardHead(line);
  }

  lemma {:induction false} SettledTowardEndIsPacked(line: seq<Cell>)
    requires SettledTowardEnd(line)
    ensures line == PackTowardEnd(line)
    decreases |line|
  {
    if |line| > 0 {
      SettledTail(line);
      SettledTowardEndIsPacked(line[1..]);
      if line[0].Empty? {
        EmptyHeadAtEnd(line);
      } else {
        CardHeadAtEnd(line);
      }
    }
  }

  /** A card in front of a packed-to-the-start line keeps it packed to the start. */
  lemma CardHeadAtStart(line: seq<Cell>)
    requires |line| > 0 && line[0].Card? && line[1..] == PackTowardStart(line[1..])
    ensures line == PackTowardStart(line)
  {
    CardHead(line);
  }

  /** A settled line starting with an empty cell whose rest is packed to the start holds no card at all. */
  lemma EmptyHeadAtStart(line: seq<Cell>)
    requires |line| > 0 && line[0].Empty? && SettledTowardStart(line) && line[1..] == PackTowardStart(line[1..])
    ensures line == PackTowardStart(line)
  {
    var tail := line[1..];
    var m := |tail| - |Tiles(tail)|;
    if |Tiles(tail)| > 0 {
      assert false;
    }
    assert line == [Empty] + tail;
    assert Nones(m + 1) == [Empty] + Nones(m);
  }

  lemma {:induction false} SettledTowardStartIsPacked(line: seq<Cell>)
    requires SettledTowardStart(line)
    ensures line == PackTowardStart(line)
    decreases |line|
  {
    if |line| > 0 {
      SettledTail(line);
      SettledTowardStartIsPacked(line[1..]);
      if line[0].Card? {
        CardHeadAtStart(line);
      } else {
        EmptyHeadAtStart(line);
      }
    }
  }

  /**
   * PackTowardEnd(line) is the only line of the same length, holding the same cards in
   * the same order, in which no card can slide toward the end.
   */
  lemma PackTowardEndUnique(line: seq<Cell>, other: seq<Cell>)
    requires |other| == |line| && Tiles(other) == Tiles(line) && SettledTowardEnd(other)
    ensures other == PackTowardEnd(line)
  {
    SettledTowardEndIsPacked(other);
  }

  lemma PackTowardStartUnique(line: seq<Cell>, other: seq<Cell>)
    requires |other| == |line| && Tiles(other) == Tiles(line) && SettledTowardStart(other)
    ensures other == PackTowardStart(line)
  {
    SettledTowardStartIsPacked(other);
  }

  /** Packing a packed line changes nothing. */
  lemma PackTowardEndIdempotent(line: seq<Cell>)
    ensures PackTowardEnd(PackTowardEnd(line)) == PackTowardEnd(line)
  {
    PackTowardEndKeeps(line);
  }

  lemma PackTowardStartIdempotent(line: seq<Cell>)
    ensures PackTowardStart(PackTowardStart(line)) == PackTowardStart(line)
  {
    PackTowardStartKeeps(line);
  }

  /** Sum of `base + i` over the positions i of the line whose cell is empty (when `empties`) or a card. */
  function IndexSum(line: seq<Cell>, base: nat, empties: bool): nat
    decreases |line|
  {
    if |line| == 0 then 0
    else (if line[0].Empty? == empties then base else 0) + IndexSum(line[1..], base + 1, empties)
  }

  lemma {:induction false} IndexSumAppend(a: seq<Cell>, b: seq<Cell>, base: nat, empties: bool)
    ensures IndexSum(a + b, base, empties) == IndexSum(a, base, empties) + IndexSum(b, base + |a|, empties)
    decreases |a|
  {
    if |a| > 0 {
      assert (a + b)[1..] == a[1..] + b;
      IndexSumAppend(a[1..], b, base + 1, empties);
    } else {
      assert a + b == b;
    }
  }

  /** Splits a line around the two cells at k and k+1. */
  lemma Window(line: seq<Cell>, k: nat, base: nat, empties: bool)
    requires k + 1 < |line|
    ensures Tiles(line) == Tiles(line[..k]) + Tiles([line[k], line[k + 1]]) + Tiles(line[k + 2..])
    ensures IndexSum(line, base, empties)
         == IndexSum(line[..k], base, empties) + IndexSum([line[k], line[k + 1]], base + k, empties)
          + IndexSum(line[k + 2..], base + k + 2, empties)
  {
    assert line == line[..k] + [line[k], line[k + 1]] + line[k + 2..];
    TilesAppend(line[..k] + [line[k], line[k + 1]], line[k + 2..]);
    TilesAppend(line[..k], [line[k], line[k + 1]]);
    IndexSumAppend(line[..k] + [line[k], line[k + 1]], line[k + 2..], base, empties);
    IndexSumAppend(line[..k], [line[k], line[k + 1]], base, empties);
  }

  /**
   * Moving a card one cell toward the end into an empty cell keeps the line's cards in
   * order and lowers the index sum of the empty cells by one.
   */
  lemma MoveTowardEnd(line: seq<Cell>, k: nat)
    requires k + 1 < |line| && line[k].Card? && line[k + 1].Empty?
    ensures Tiles(line[k + 1 := line[k]][k := Empty]) == Tiles(line)
    ensures IndexSum(line[k + 1 := line[k]][k := Empty], 0, true) + 1 == IndexSum(line, 0, true)
  {
    var line' := line[k + 1 := line[k]][k := Empty];
    Window(line, k, 0, true);
    Window(line', k, 0, true);
    assert line'[..k] == line[..k] && line'[k + 2..] == line[k + 2..];
  }

  /**
   * Moving a card one cell toward the start into an empty cell keeps the line's cards in
   * order and lowers the index sum of the cards by one.
   */
  lemma MoveTowardStart(line: seq<Cell>, k: nat)
    requires k + 1 < |line| && line[k].Empty? && line[k + 1].Card?
    ensures Tiles(line[k := line[k + 1]][k + 1 := Empty]) == Tiles(line)
    ensures IndexSum(line[k := line[k + 1]][k + 1 := Empty], 0, false) + 1 == IndexSum(line, 0, false)
  {
    var line' := line[k := line[k + 1]][k + 1 := Empty];
    Window(line, k, 0, false);
    Window(line', k, 0, false);
    assert line'[..k] == line[..k] && line'[k + 2..] == line[k + 2..];
  }
}

=== FILE: pathfinding.dfy ===
/**
 * findPath: the connectivity solver. Two cards can be matched when an orthogonal path
 * joins them that crosses only empty cells or the off-board margin and changes direction
 * at most twice. The search is a breadth-first search over states (position, last
 * direction, direction changes), deduplicated on all four fields.
 */
module PathFinding {
  import opened Board

  /** A result that may be missing; `None` stands for the game's `null`. */
  datatype Option<T> = None | Some(value: T)

  /** Width of the always-passable band around the board. */
  const MARGIN: int := 2
  /** Most direction changes a connecting path may make. */
  const MAX_TURNS: int := 2

  /** Orthogonal neighbours: one unit apart in exactly one coordinate (the game's absolute-difference test). */
  predicate Adjacent(p: Point, q: Point) {
    || ((p.x - q.x == 1 || p.x - q.x == -1) && p.y == q.y)
    || ((p.y - q.y == 1 || p.y - q.y == -1) && p.x == q.x)
  }

  // Direction indices as in the game: 0 up, 1 right, 2 down, 3 left.
  function DX(d: int): int
    requires 0 <= d < 4
  {
    if d == 1 then 1 else if d == 3 then -1 else 0
  }

  function DY(d: int): int
    requires 0 <= d < 4
  {
    if d == 0 then -1 else if d == 2 then 1 else 0
  }

  function Move(p: Point, d: int): Point
    requires 0 <= d < 4
  {
    Point(p.x + DX(d), p.y + DY(d))
  }

  /** The direction of a unit step from p to q, or -1 when q is not a neighbour of p. */
  function StepDir(p: Point, q: Point): (d: int)
    ensures -1 <= d < 4
  {
    if q.x == p.x && q.y == p.y - 1 then 0
    else if q.x == p.x + 1 && q.y == p.y then 1
    else if q.x == p.x && q.y == p.y + 1 then 2
    else if q.x == p.x - 1 && q.y == p.y then 3
    else -1
  }

  /** StepDir names the step exactly: a direction leads from p to q, and -1 means q is no neighbour of p. */
  lemma StepDirSpec(p: Point, q: Point)
    ensures 0 <= StepDir(p, q) ==> Move(p, StepDir(p, q)) == q
    ensures StepDir(p, q) == -1 <==> !Adjacent(p, q)
  {
  }

  lemma StepDirOfMove(p: Point, d: int)
    requires 0 <= d < 4
    ensures StepDir(p, Move(p, d)) == d
    ensures Adjacent(p, Move(p, d))
  {
  }

  /** Stepping back reverses the direction. */
  lemma StepDirReversed(p: Point, q: Point)
    requires Adjacent(p, q)
    ensures StepDir(q, p) == (StepDir(p, q) + 2) % 4
  {
  }

  predicate IsWalk(p: seq<Point>) {
    forall i :: 0 <= i < |p| - 1 ==> Adjacent(p[i], p[i + 1])
  }

  /** Number of interior points of p where the direction of travel changes (a reversal counts). */
  function Turns(p: seq<Point>): nat {
    if |p| < 3 then 0
    else Turns(p[..|p| - 1]) + (if StepDir(p[|p| - 3], p[|p| - 2]) != StepDir(p[|p| - 2], p[|p| - 1]) then 1 else 0)
  }

  /** Direction of the last step of p, or -1 before the first step. */
  function LastDir(p: seq<Point>): int {
    if |p| < 2 then -1 else StepDir(p[|p| - 2], p[|p| - 1])
  }

  /** Within the board extended by MARGIN cells on every side. */
  predicate InMargin(p: Point, rows: nat, cols: nat) {
    -MARGIN <= p.x <= cols + MARGIN - 1 && -MARGIN <= p.y <= rows + MARGIN - 1
  }

  /** A step may land here: off the board, on an empty cell, or on the target. */
  predicate Passable(g: Grid, rows: nat, cols: nat, dst: Point, p: Point)
    requires WellFormed(g, rows, cols)
  {
    !OnBoard(p, rows, cols) || CellAt(g, rows, cols, p) == Empty || p == dst
  }

  /**
   * An admissible path: from src to dst by unit steps, every point after the first inside
   * the margin and passable, with at most MAX_TURNS direction changes.
   */
  ghost predicate AdmissiblePath(g: Grid, rows: nat, cols: nat, src: Point, dst: Point, p: seq<Point>)
    requires WellFormed(g, rows, cols)
  {
    && |p| >= 1 && p[0] == src && p[|p| - 1] == dst
    && IsWalk(p)
    && (forall i :: 1 <= i < |p| ==> InMargin(p[i], rows, cols) && Passable(g, rows, cols, dst, p[i]))
    && Turns(p) <= MAX_TURNS
  }

  /** The two positions can be joined: they are neighbours, or an admissible path exists. */
  ghost predicate Connectable(g: Grid, rows: nat, cols: nat, src: Point, dst: Point)
    requires WellFormed(g, rows, cols)
  {
    Adjacent(src, dst) || exists p :: AdmissiblePath(g, rows, cols, src, dst, p)
  }

  /**
   * What a returned path looks like: from src to dst by unit steps, at most MAX_TURNS
   * direction changes, dst only at the end, and every interior point off the board (inside
   * the margin) or an empty cell.
   */
  predicate IsRoute(g: Grid, rows: nat, cols: nat, src: Point, dst: Point, p: seq<Point>)
    requires WellFormed(g, rows, cols)
  {
    && |p| >= 1 && p[0] == src && p[|p| - 1] == dst
    && IsWalk(p)
    && Turns(p) <= MAX_TURNS
    && (forall i :: 0 <= i < |p| - 1 ==> p[i] != dst)
    && (forall i :: 0 < i < |p| - 1 ==>
          InMargin(p[i], rows, cols) && (!OnBoard(p[i], rows, cols) || CellAt(g, rows, cols, p[i]) == Empty))
  }

  // ---------------------------------------------------------------------------
  // Turn counting along a growing path
  // ---------------------------------------------------------------------------

  /** One more step in direction d: the last direction becomes d, and a change of direction adds a turn. */
  lemma TurnsExtend(q: seq<Point>, d: int)
    requires |q| >= 1 && 0 <= d < 4
    requires |q| >= 2 ==> Adjacent(q[|q| - 2], q[|q| - 1])
    ensures LastDir(q + [Move(q[|q| - 1], d)]) == d
    ensures Turns(q + [Move(q[|q| - 1], d)]) == Turns(q) + (if LastDir(q) != -1 && LastDir(q) != d then 1 else 0)
  {
    LastDirExtend(q, d);
    if |q| >= 2 {
      StepDirSpec(q[|q| - 2], q[|q| - 1]);
      TurnsExtendLong(q, d);
    } else {
      TurnsExtendShort(q, d);
    }
  }

  lemma LastDirExtend(q: seq<Point>, d: int)
    requires |q| >= 1 && 0 <= d < 4
    ensures LastDir(q + [Move(q[|q| - 1], d)]) == d
  {
    var r := q + [Move(q[|q| - 1], d)];
    StepDirOfMove(q[|q| - 1], d);
    assert r[|r| - 2] == q[|q| - 1];
  }

  lemma TurnsExtendShort(q: seq<Point>, d: int)
    requires |q| == 1 && 0 <= d < 4
    ensures Turns(q + [Move(q[|q| - 1], d)]) == 0
    ensures LastDir(q) == -1
  {
  }

  /** The last interior point of a path adds a turn exactly when the last direction changes there. */
  lemma TurnsLast(r: seq<Point>)
    requires |r| >= 3
    ensures Turns(r) == Turns(r[..|r| - 1]) + (if LastDir(r[..|r| - 1]) != LastDir(r) then 1 else 0)
  {
    var q := r[..|r| - 1];
    assert q[|q| - 2] == r[|r| - 3] && q[|q| - 1] == r[|r| - 2];
  }

  lemma TurnsExtendLong(q: seq<Point>, d: int)
    requires |q| >= 2 && 0 <= d < 4
    ensures Turns(q + [Move(q[|q| - 1], d)]) == Turns(q) + (if LastDir(q) != d then 1 else 0)
  {
    var r := q + [Move(q[|q| - 1], d)];
    assert r[..|r| - 1] == q;
    LastDirExtend(q, d);
    TurnsLast(r);
  }

  lemma {:induction false} TurnsPrefix(p: seq<Point>, j: nat)
    requires j <= |p|
    ensures Turns(p[..j]) <= Turns(p)
    decreases |p| - j
  {
    if j < |p| {
      var p' := p[..|p| - 1];
      assert p'[..j] == p[..j];
      TurnsPrefix(p', j);
    } else {
      assert p[..j] == p;
    }
  }

  /** Turns counted from the front: the first interior point, then the rest of the path. */
  lemma {:induction false} TurnsFront(p: seq<Point>)
    requires |p| >= 3
    ensures Turns(p) == (if StepDir(p[0], p[1]) != StepDir(p[1], p[2]) then 1 else 0) + Turns(p[1..])
    decreases |p|
  {
    if |p| > 3 {
      var init := p[..|p| - 1];
      TurnsFront(init);
      assert init[1..] == p[1..][..|p| - 2];
    } else {
      assert p[..|p| - 1][..2] == p[..2];
    }
  }

  function Reverse(p: seq<Point>): (r: seq<Point>)
    ensures |r| == |p|
    ensures forall i :: 0 <= i < |p| ==> r[i] == p[|p| - 1 - i]
  {
    seq(|p|, i requires 0 <= i < |p| => p[|p| - 1 - i])
  }

  /** A walk travelled backwards makes the same number of turns. */
  lemma {:induction false} TurnsReverse(p: seq<Point>)
    requires IsWalk(p)
    ensures IsWalk(Reverse(p))
    ensures Turns(Reverse(p)) == Turns(p)
    decreases |p|
  {
    var r := Reverse(p);
    forall i | 0 <= i < |r| - 1
      ensures Adjacent(r[i], r[i + 1])
    {
      assert r[i] == p[|p| - 1 - i] && r[i + 1] == p[|p| - 2 - i];
    }
    if |p| >= 3 {
      var tail := p[1..];
      TurnsReverse(tail);
      assert r[..|r| - 1] == Reverse(tail);
      TurnsFront(p);
      StepDirReversed(p[0], p[1]);
      StepDirReversed(p[1], p[2]);
      assert r[|r| - 3] == p[2] && r[|r| - 2] == p[1] && r[|r| - 1] == p[0];
    }
  }

  // ---------------------------------------------------------------------------
  // Search states
  // ---------------------------------------------------------------------------

  /** The visited-set key: position, last direction (-1 before the first step) and direction changes. */
  datatype Key = Key(pos: Point, lastDir: int, turns: int)

  /** A queue entry: its key and the path that reached it (ending at the key's position). */
  datatype Node = Node(key: Key, path: seq<Point>)

  /** The key reached by one step in direction d from k, if the step is allowed. */
  function Succ(g: Grid, rows: nat, cols: nat, dst: Point, k: Key, d: int): Option<Key>
    requires WellFormed(g, rows, cols) && 0 <= d < 4
  {
    var np := Move(k.pos, d);
    if !InMargin(np, rows, cols) then None
    else
      var nt := k.turns + (if k.lastDir != -1 && k.lastDir != d then 1 else 0);
      if nt > MAX_TURNS then None
      else if Passable(g, rows, cols, dst, np) then Some(Key(np, d, nt))
      else None
  }

  function KeysOf(q: seq<Node>): seq<Key> {
    if |q| == 0 then [] else [q[0].key] + KeysOf(q[1..])
  }

  lemma {:induction false} KeysOfAppend(a: seq<Node>, b: seq<Node>)
    ensures KeysOf(a + b) == KeysOf(a) + KeysOf(b)
    decreases |a|
  {
    if |a| > 0 {
      assert (a + b)[1..] == a[1..] + b;
      KeysOfAppend(a[1..], b);
    } else {
      assert a + b == b;
    }
  }

  /**
   * The nodes pushed for directions d, d+1, ..., 3 in that order: exactly the allowed
   * successors, each with its path extended by the new position.
   */
  function ExpandFrom(g: Grid, rows: nat, cols: nat, dst: Point, n: Node, d: int): (out: seq<Node>)
    requires WellFormed(g, rows, cols) && 0 <= d <= 4
    ensures forall e :: d <= e < 4 && Succ(g, rows, cols, dst, n.key, e).Some? ==>
              Succ(g, rows, cols, dst, n.key, e).value in KeysOf(out)
    ensures forall i :: 0 <= i < |out| ==>
              && d <= out[i].key.lastDir < 4
              && Succ(g, rows, cols, dst, n.key, out[i].key.lastDir) == Some(out[i].key)
              && out[i].path == n.path + [out[i].key.pos]
    decreases 4 - d
  {
    if d == 4 then []
    else
      var rest := ExpandFrom(g, rows, cols, dst, n, d + 1);
      match Succ(g, rows, cols, dst, n.key, d)
      case None => rest
      case Some(k) => [Node(k, n.path + [k.pos])] + rest
  }

  /** Everything the search knows about a queued node. */
  ghost predicate NodeOk(g: Grid, rows: nat, cols: nat, src: Point, dst: Point, n: Node)
    requires WellFormed(g, rows, cols)
  {
    && |n.path| >= 1 && n.path[0] == src && n.path[|n.path| - 1] == n.key.pos
    && IsWalk(n.path)
    && (forall i :: 1 <= i < |n.path| ==> InMargin(n.path[i], rows, cols) && Passable(g, rows, cols, dst, n.path[i]))
    && (forall i :: 0 <= i < |n.path| - 1 ==> n.path[i] != dst)
    && n.key.lastDir == LastDir(n.path)
    && n.key.turns == Turns(n.path)
    && Turns(n.path) <= MAX_TURNS
  }

  /** Every key the search can meet; finite, which bounds the search. */
  ghost function Universe(rows: nat, cols: nat, src: Point): set<Key> {
    (set x: int, y: int, d: int, t: int
       | -MARGIN <= x <= cols + MARGIN - 1 && -MARGIN <= y <= rows + MARGIN - 1 && -1 <= d < 4 && 0 <= t <= MAX_TURNS
       :: Key(Point(x, y), d, t))
    + {Key(src, -1, 0)}
  }

  lemma NodeInUniverse(g: Grid, rows: nat, cols: nat, src: Point, dst: Point, n: Node)
    requires WellFormed(g, rows, cols) && NodeOk(g, rows, cols, src, dst, n)
    ensures n.key in Universe(rows, cols, src)
  {
    var k := n.key;
    if |n.path| == 1 {
      assert k == Key(src, -1, 0);
    } else {
      assert InMargin(n.path[|n.path| - 1], rows, cols);
      assert Adjacent(n.path[|n.path| - 2], n.path[|n.path| - 1]);
      assert k == Key(Point(k.pos.x, k.pos.y), k.lastDir, k.turns);
    }
  }

  /** A walk extended by one unit step is a walk. */
  lemma WalkExtend(q: seq<Point>, d: int)
    requires |q| >= 1 && 0 <= d < 4 && IsWalk(q)
    ensures IsWalk(q + [Move(q[|q| - 1], d)])
    ensures |q| >= 2 ==> Adjacent(q[|q| - 2], q[|q| - 1])
  {
    var r := q + [Move(q[|q| - 1], d)];
    StepDirOfMove(q[|q| - 1], d);
    forall i | 0 <= i < |r| - 1
      ensures Adjacent(r[i], r[i + 1])
    {
      if i < |q| - 1 {
        assert r[i] == q[i] && r[i + 1] == q[i + 1];
      }
    }
  }

  /** Appending an allowed point keeps every point after the first allowed. */
  lemma ExtendStaysAllowed(g: Grid, rows: nat, cols: nat, dst: Point, q: seq<Point>, x: Point)
    requires WellFormed(g, rows, cols)
    requires forall i :: 1 <= i < |q| ==> InMargin(q[i], rows, cols) && Passable(g, rows, cols, dst, q[i])
    requires InMargin(x, rows, cols) && Passable(g, rows, cols, dst, x)
    ensures forall i :: 1 <= i < |q + [x]| ==> InMargin((q + [x])[i], rows, cols) && Passable(g, rows, cols, dst, (q + [x])[i])
  {
    var r := q + [x];
    forall i | 1 <= i < |r|
      ensures InMargin(r[i], rows, cols) && Passable(g, rows, cols, dst, r[i])
    {
      if i < |q| {
        assert r[i] == q[i];
      }
    }
  }

  /** Appending a point after a last point that is not the target keeps the target out of all but the last point. */
  lemma ExtendAvoidsTarget(q: seq<Point>, x: Point, dst: Point)
    requires |q| >= 1 && q[|q| - 1] != dst
    requires forall i :: 0 <= i < |q| - 1 ==> q[i] != dst
    ensures forall i :: 0 <= i < |q + [x]| - 1 ==> (q + [x])[i] != dst
  {
    var r := q + [x];
    forall i | 0 <= i < |r| - 1
      ensures r[i] != dst
    {
      assert r[i] == q[i];
    }
  }

  /** What an allowed successor is: one step in direction d, inside the margin, passable, within the turn budget. */
  lemma SuccFacts(g: Grid, rows: nat, cols: nat, dst: Point, k: Key, d: int, k': Key)
    requires WellFormed(g, rows, cols) && 0 <= d < 4 && Succ(g, rows, cols, dst, k, d) == Some(k')
    ensures k'.pos == Move(k.pos, d) && k'.lastDir == d
    ensures k'.turns == k.turns + (if k.lastDir != -1 && k.lastDir != d then 1 else 0)
    ensures k'.turns <= MAX_TURNS
    ensures InMargin(k'.pos, rows, cols) && Passable(g, rows, cols, dst, k'.pos)
  {
  }

  /** The node pushed for an allowed step from a node the search knows about is one it knows about too. */
  lemma ChildOk(g: Grid, rows: nat, cols: nat, src: Point, dst: Point, n: Node, d: int, k: Key)
    requires WellFormed(g, rows, cols) && NodeOk(g, rows, cols, src, dst, n) && n.key.pos != dst
    requires 0 <= d < 4 && Succ(g, rows, cols, dst, n.key, d) == Some(k)
    ensures NodeOk(g, rows, cols, src, dst, Node(k, n.path + [k.pos]))
  {
    var q := n.path;
    SuccFacts(g, rows, cols, dst, n.key, d, k);
    WalkExtend(q, d);
    TurnsExtend(q, d);
    ExtendStaysAllowed(g, rows, cols, dst, q, k.pos);
    ExtendAvoidsTarget(q, k.pos, dst);
  }

  /** Expanding a node that is not at the target yields nodes the search knows the same about. */
  lemma ExpandKeepsNodesOk(g: Grid, rows: nat, cols: nat, src: Point, dst: Point, n: Node)
    requires WellFormed(g, rows, cols) && NodeOk(g, rows, cols, src, dst, n) && n.key.pos != dst
    ensures forall i :: 0 <= i < |ExpandFrom(g, rows, cols, dst, n, 0)| ==>
              NodeOk(g, rows, cols, src, dst, ExpandFrom(g, rows, cols, dst, n, 0)[i])
  {
    var out := ExpandFrom(g, rows, cols, dst, n, 0);
    forall i | 0 <= i < |out|
      ensures NodeOk(g, rows, cols, src, dst, out[i])
    {
      ChildOk(g, rows, cols, src, dst, n, out[i].key.lastDir, out[i].key);
    }
  }

  /**
   * The closure argument: a set of keys that holds the start, holds no key at the target,
   * and holds every allowed successor of its keys admits no path at all.
   */
  lemma NoPathFromClosedSet(g: Grid, rows: nat, cols: nat, src: Point, dst: Point, visited: set<Key>)
    requires WellFormed(g, rows, cols)
    requires Key(src, -1, 0) in visited
    requires forall k :: k in visited ==> k.pos != dst
    requires forall k, d :: k in visited && 0 <= d < 4 && Succ(g, rows, cols, dst, k, d).Some? ==>
               Succ(g, rows, cols, dst, k, d).value in visited
    ensures forall p :: !AdmissiblePath(g, rows, cols, src, dst, p)
  {
    forall p | AdmissiblePath(g, rows, cols, src, dst, p)
      ensures false
    {
      PrefixKeysVisited(g, rows, cols, src, dst, visited, p, |p|);
    }
  }

  lemma {:induction false} PrefixKeysVisited(g: Grid, rows: nat, cols: nat, src: Point, dst: Point,
                                             visited: set<Key>, p: seq<Point>, j: nat)
    requires WellFormed(g, rows, cols)
    requires Key(src, -1, 0) in visited
    requires forall k, d :: k in visited && 0 <= d < 4 && Succ(g, rows, cols, dst, k, d).Some? ==>
               Succ(g, rows, cols, dst, k, d).value in visited
    requires AdmissiblePath(g, rows, cols, src, dst, p) && 1 <= j <= |p|
    ensures Key(p[j - 1], LastDir(p[..j]), Turns(p[..j])) in visited
    decreases j
  {
    if j == 1 {
      assert p[..1] == [src];
    } else {
      PrefixKeysVisited(g, rows, cols, src, dst, visited, p, j - 1);
      var d := PrefixStep(g, rows, cols, src, dst, p, j);
      var k := Key(p[j - 2], LastDir(p[..j - 1]), Turns(p[..j - 1]));
      assert Succ(g, rows, cols, dst, k, d).Some?;
    }
  }

  /** The step into point j - 1 of a walk: its direction, and how it extends the last direction and the turns. */
  lemma PrefixStepTurns(p: seq<Point>, j: nat) returns (d: int)
    requires IsWalk(p) && 2 <= j <= |p|
    ensures 0 <= d < 4 && Move(p[j - 2], d) == p[j - 1]
    ensures LastDir(p[..j]) == d
    ensures Turns(p[..j]) == Turns(p[..j - 1]) + (if LastDir(p[..j - 1]) != -1 && LastDir(p[..j - 1]) != d then 1 else 0)
    ensures Turns(p[..j]) <= Turns(p)
  {
    var q := p[..j - 1];
    assert Adjacent(p[j - 2], p[j - 1]);
    StepDirSpec(p[j - 2], p[j - 1]);
    d := StepDir(p[j - 2], p[j - 1]);
    if j >= 3 {
      assert q[|q| - 2] == p[j - 3] && q[|q| - 1] == p[j - 2];
      assert Adjacent(p[j - 3], p[j - 2]);
    }
    assert p[..j] == q + [Move(q[|q| - 1], d)];
    TurnsExtend(q, d);
    TurnsPrefix(p, j);
  }

  /** One more point of an admissible path is one allowed successor of the previous prefix's key. */
  lemma PrefixStep(g: Grid, rows: nat, cols: nat, src: Point, dst: Point, p: seq<Point>, j: nat) returns (d: int)
    requires WellFormed(g, rows, cols)
    requires AdmissiblePath(g, rows, cols, src, dst, p) && 2 <= j <= |p|
    ensures 0 <= d < 4
    ensures Succ(g, rows, cols, dst, Key(p[j - 2], LastDir(p[..j - 1]), Turns(p[..j - 1])), d)
         == Some(Key(p[j - 1], LastDir(p[..j]), Turns(p[..j])))
  {
    d := PrefixStepTurns(p, j);
    assert InMargin(p[j - 1], rows, cols) && Passable(g, rows, cols, dst, p[j - 1]);
  }

  /** Every allowed successor of a key in `visited` is in `visited` or waiting in `pending`. */
  ghost predicate ClosedUpTo(g: Grid, rows: nat, cols: nat, dst: Point, visited: set<Key>, pending: seq<Key>)
    requires WellFormed(g, rows, cols)
  {
    forall k, d :: k in visited && 0 <= d < 4 && Succ(g, rows, cols, dst, k, d).Some? ==>
      Succ(g, rows, cols, dst, k, d).value in visited || Succ(g, rows, cols, dst, k, d).value in pending
  }

  ghost predicate QueueOk(g: Grid, rows: nat, cols: nat, src: Point, dst: Point, queue: seq<Node>)
    requires WellFormed(g, rows, cols)
  {
    forall i :: 0 <= i < |queue| ==> NodeOk(g, rows, cols, src, dst, queue[i])
  }

  /** Dropping a dequeued node whose key was already visited keeps the closure. */
  lemma SkipKeepsClosure(g: Grid, rows: nat, cols: nat, dst: Point, visited: set<Key>, queue: seq<Node>)
    requires WellFormed(g, rows, cols) && |queue| > 0 && queue[0].key in visited
    requires ClosedUpTo(g, rows, cols, dst, visited, KeysOf(queue))
    ensures ClosedUpTo(g, rows, cols, dst, visited, KeysOf(queue[1..]))
  {
    assert KeysOf(queue) == [queue[0].key] + KeysOf(queue[1..]);
  }

  /** Visiting the dequeued node and enqueueing its successors keeps the closure. */
  lemma VisitKeepsClosure(g: Grid, rows: nat, cols: nat, dst: Point, visited: set<Key>, queue: seq<Node>)
    requires WellFormed(g, rows, cols) && |queue| > 0
    requires ClosedUpTo(g, rows, cols, dst, visited, KeysOf(queue))
    ensures ClosedUpTo(g, rows, cols, dst, visited + {queue[0].key},
                       KeysOf(queue[1..] + ExpandFrom(g, rows, cols, dst, queue[0], 0)))
  {
    var node := queue[0];
    var next := ExpandFrom(g, rows, cols, dst, node, 0);
    assert KeysOf(queue) == [node.key] + KeysOf(queue[1..]);
    KeysOfAppend(queue[1..], next);
  }

  /** Enqueueing the successors of a visited node keeps every queued node well described. */
  lemma VisitKeepsQueueOk(g: Grid, rows: nat, cols: nat, src: Point, dst: Point, queue: seq<Node>)
    requires WellFormed(g, rows, cols) && |queue| > 0 && queue[0].key.pos != dst
    requires QueueOk(g, rows, cols, src, dst, queue)
    ensures QueueOk(g, rows, cols, src, dst, queue[1..] + ExpandFrom(g, rows, cols, dst, queue[0], 0))
  {
    ExpandKeepsNodesOk(g, rows, cols, src, dst, queue[0]);
  }

  /**
   * findPath. Orthogonal neighbours are joined at once by the two-point path; otherwise a
   * breadth-first search returns the first path that reaches dst, or None when none exists.
   */
  method FindPath(g: Grid, rows: nat, cols: nat, src: Point, dst: Point) returns (r: Option<seq<Point>>)
    requires WellFormed(g, rows, cols)
    ensures Adjacent(src, dst) ==> r == Some([src, dst])
    ensures r.Some? <==> Connectable(g, rows, cols, src, dst)
    ensures r.Some? ==> IsRoute(g, rows, cols, src, dst, r.value)
    ensures r.Some? && !Adjacent(src, dst) ==> AdmissiblePath(g, rows, cols, src, dst, r.value)
  {
    if Adjacent(src, dst) {
      return Some([src, dst]);
    }
    var init := Key(src, -1, 0);
    var queue := [Node(init, [src])];
    var visited: set<Key> := {};
    while |queue| > 0
      invariant visited <= Universe(rows, cols, src)
      invariant QueueOk(g, rows, cols, src, dst, queue)
      invariant forall k :: k in visited ==> k.pos != dst
      invariant init in visited || init in KeysOf(queue)
      invariant ClosedUpTo(g, rows, cols, dst, visited, KeysOf(queue))
      decreases |Universe(rows, cols, src) - visited|, |queue|
    {
      var node := queue[0];
      assert NodeOk(g, rows, cols, src, dst, node);
      assert KeysOf(queue) == [node.key] + KeysOf(queue[1..]);
      if node.key in visited {
        SkipKeepsClosure(g, rows, cols, dst, visited, queue);
        queue := queue[1..];
        continue;
      }
      NodeInUniverse(g, rows, cols, src, dst, node);
      assert Universe(rows, cols, src) - (visited + {node.key}) < Universe(rows, cols, src) - visited;
      if node.key.pos == dst && node.key.turns <= MAX_TURNS {
        Found(g, rows, cols, src, dst, node);
        return Some(node.path);
      }
      VisitKeepsClosure(g, rows, cols, dst, visited, queue);
      VisitKeepsQueueOk(g, rows, cols, src, dst, queue);
      var next := ExpandFrom(g, rows, cols, dst, node, 0);
      KeysOfAppend(queue[1..], next);
      visited := visited + {node.key};
      queue := queue[1..] + next;
    }
    NoPathFromClosedSet(g, rows, cols, src, dst, visited);
    return None;
  }

  /** A dequeued node at the target carries a route and an admissible path. */
  lemma Found(g: Grid, rows: nat, cols: nat, src: Point, dst: Point, n: Node)
    requires WellFormed(g, rows, cols) && NodeOk(g, rows, cols, src, dst, n) && n.key.pos == dst
    ensures IsRoute(g, rows, cols, src, dst, n.path)
    ensures AdmissiblePath(g, rows, cols, src, dst, n.path)
    ensures Connectable(g, rows, cols, src, dst)
  {
  }

  // ---------------------------------------------------------------------------
  // Properties of connectability
  // ---------------------------------------------------------------------------

  /** The first position at which x occurs in p. */
  function FirstIndex(p: seq<Point>, x: Point): (i: nat)
    requires x in p
    ensures i < |p| && p[i] == x
    ensures forall k :: 0 <= k < i ==> p[k] != x
  {
    if p[0] == x then 0 else 1 + FirstIndex(p[1..], x)
  }

  /**
   * An admissible path from a to b, cut at its first visit to b and travelled backwards,
   * is an admissible path from b to a: its interior crosses only the margin and empty cells.
   */
  lemma ReversedPath(g: Grid, rows: nat, cols: nat, a: Point, b: Point, p: seq<Point>) returns (r: seq<Point>)
    requires WellFormed(g, rows, cols) && OnBoard(a, rows, cols) && CellAt(g, rows, cols, a).Card? && a != b
    requires AdmissiblePath(g, rows, cols, a, b, p)
    ensures AdmissiblePath(g, rows, cols, b, a, r)
  {
    var j := FirstIndex(p, b);
    var q := p[..j + 1];
    assert IsWalk(q);
    TurnsPrefix(p, j + 1);
    TurnsReverse(q);
    r := Reverse(q);
    forall i | 1 <= i < |r|
      ensures InMargin(r[i], rows, cols) && Passable(g, rows, cols, a, r[i])
    {
      var k := |q| - 1 - i;
      assert r[i] == q[k] == p[k];
      if k > 0 {
        assert InMargin(p[k], rows, cols) && Passable(g, rows, cols, b, p[k]);
      }
    }
  }

  /** If a can be joined to b, then b can be joined to a (both are cards, as when two are selected). */
  lemma ConnectableFlip(g: Grid, rows: nat, cols: nat, a: Point, b: Point)
    requires WellFormed(g, rows, cols) && OnBoard(a, rows, cols) && CellAt(g, rows, cols, a).Card? && a != b
    requires Connectable(g, rows, cols, a, b)
    ensures Connectable(g, rows, cols, b, a)
  {
    if !Adjacent(a, b) {
      var p :| AdmissiblePath(g, rows, cols, a, b, p);
      var r := ReversedPath(g, rows, cols, a, b, p);
    }
  }

  /** Whether two selected cards can be matched does not depend on which was clicked first. */
  lemma ConnectableSymmetric(g: Grid, rows: nat, cols: nat, a: Point, b: Point)
    requires WellFormed(g, rows, cols) && OnBoard(a, rows, cols) && OnBoard(b, rows, cols)
    requires CellAt(g, rows, cols, a).Card? && CellAt(g, rows, cols, b).Card? && a != b
    ensures Connectable(g, rows, cols, a, b) <==> Connectable(g, rows, cols, b, a)
  {
    if Connectable(g, rows, cols, a, b) {
      ConnectableFlip(g, rows, cols, a, b);
    }
    if Connectable(g, rows, cols, b, a) {
      ConnectableFlip(g, rows, cols, b, a);
    }
  }

  /** The n points reached from p by n unit steps in direction d, p itself excluded. */
  function Ray(p: Point, d: int, n: nat): (r: seq<Point>)
    requires 0 <= d < 4
    ensures |r| == n
    ensures forall i :: 0 <= i < n ==> r[i] == Point(p.x + (i + 1) * DX(d), p.y + (i + 1) * DY(d))
    decreases n
  {
    if n == 0 then [] else [Move(p, d)] + Ray(Move(p, d), d, n - 1)
  }

  /** A ray of n >= 1 steps is its first step followed by the rest of the ray. */
  lemma RayUnfold(q: seq<Point>, p: Point, d: int, n: nat)
    requires 0 <= d < 4 && n >= 1
    ensures q + Ray(p, d, n) == (q + [Move(p, d)]) + Ray(Move(p, d), d, n - 1)
  {
  }

  /** Continuing a walk straight on in direction d for n >= 1 steps adds at most the one turn onto d. */
  lemma {:induction false} RayWalk(q: seq<Point>, d: int, n: nat)
    requires |q| >= 1 && 0 <= d < 4 && IsWalk(q) && n >= 1
    ensures IsWalk(q + Ray(q[|q| - 1], d, n))
    ensures LastDir(q + Ray(q[|q| - 1], d, n)) == d
    ensures Turns(q + Ray(q[|q| - 1], d, n)) == Turns(q) + (if LastDir(q) != -1 && LastDir(q) != d then 1 else 0)
    decreases n
  {
    var p := q[|q| - 1];
    var q' := q + [Move(p, d)];
    WalkExtend(q, d);
    TurnsExtend(q, d);
    RayUnfold(q, p, d, n);
    if n > 1 {
      RayWalk(q', d, n - 1);
    } else {
      assert Ray(Move(p, d), d, 0) == [];
      assert q' + [] == q';
    }
  }

  /** The route over the top margin: up from a, across to above b, down onto b, with two turns. */
  lemma TopRowRoute(a: Point, b: Point) returns (p: seq<Point>)
    requires a.y == 0 && b.y == 0 && a.x < b.x
    ensures |p| >= 2 && p[0] == a && p[|p| - 1] == b
    ensures IsWalk(p) && Turns(p) <= MAX_TURNS
    ensures forall i :: 0 < i < |p| - 1 ==> p[i].y == -1 && a.x <= p[i].x <= b.x
  {
    var up := [a] + Ray(a, 0, 1);
    RayWalk([a], 0, 1);
    var across := up + Ray(up[1], 1, b.x - a.x);
    RayWalk(up, 1, b.x - a.x);
    AcrossCells(a, b, up, across);
    p := across + Ray(across[|across| - 1], 2, 1);
    RayWalk(across, 2, 1);
    DownCell(a, b, across, p);
  }

  /** Where the first two legs of the top-margin route run. */
  lemma AcrossCells(a: Point, b: Point, up: seq<Point>, across: seq<Point>)
    requires a.y == 0 && b.y == 0 && a.x < b.x
    requires up == [a] + Ray(a, 0, 1)
    requires across == up + Ray(up[1], 1, b.x - a.x)
    ensures |across| == b.x - a.x + 2 && across[0] == a
    ensures across[|across| - 1] == Point(b.x, -1)
    ensures forall i :: 0 < i < |across| ==> across[i].y == -1 && a.x <= across[i].x <= b.x
  {
    assert up[1] == Point(a.x, -1);
    var r := Ray(up[1], 1, b.x - a.x);
    forall i | 0 < i < |across|
      ensures across[i].y == -1 && a.x <= across[i].x <= b.x
    {
      if i >= 2 {
        assert across[i] == r[i - 2];
      }
    }
  }

  /** The last leg of the top-margin route ends on b. */
  lemma DownCell(a: Point, b: Point, across: seq<Point>, p: seq<Point>)
    requires |across| >= 2 && across[|across| - 1] == Point(b.x, -1)
    requires forall i :: 0 < i < |across| ==> across[i].y == -1 && a.x <= across[i].x <= b.x
    requires p == across + Ray(across[|across| - 1], 2, 1)
    ensures |p| == |across| + 1 && p[0] == across[0] && p[|p| - 1] == Point(b.x, 0)
    ensures forall i :: 0 < i < |p| - 1 ==> p[i].y == -1 && a.x <= p[i].x <= b.x
  {
    forall i | 0 < i < |p| - 1
      ensures p[i].y == -1 && a.x <= p[i].x <= b.x
    {
      assert p[i] == across[i];
    }
  }

  /**
   * Any two positions of the top row can be joined over the margin above the board: one
   * step up, straight across, one step down, which makes two turns whatever the board holds.
   */
  lemma TopRowConnectable(g: Grid, rows: nat, cols: nat, a: Point, b: Point)
    requires WellFormed(g, rows, cols) && OnBoard(a, rows, cols) && OnBoard(b, rows, cols)
    requires a.y == 0 && b.y == 0 && a.x < b.x
    ensures Connectable(g, rows, cols, a, b)
  {
    var p := TopRowRoute(a, b);
    forall i | 1 <= i < |p|
      ensures InMargin(p[i], rows, cols) && Passable(g, rows, cols, b, p[i])
    {
      if i < |p| - 1 {
        assert p[i].y == -1 && a.x <= p[i].x <= b.x;
      }
    }
    assert AdmissiblePath(g, rows, cols, a, b, p);
  }
}

=== FILE: setup.dfy ===
/**
 * Dealing a new board: a list of cards built from runs of one character each, shuffled,
 * and laid out row by row. The browser's random numbers are passed in as functions from
 * the index of the draw to a natural number, reduced as the game reduces them.
 */
module Setup {
  import opened Board
  import opened Lines

  /** Number of character images shipped with the game. */
  const CHARACTER_COUNT: nat := 26

  datatype Difficulty = Easy | Medium | MediumPlus | Hard

  /** How many distinct characters a difficulty uses: the floor of 25%, 50%, 80% and 100% of 26. */
  function CharacterCount(d: Difficulty): (n: nat)
    ensures 0 < n <= CHARACTER_COUNT
    ensures d == Hard <==> n == CHARACTER_COUNT
  {
    match d
    case Easy => CHARACTER_COUNT * 25 / 100
    case Medium => CHARACTER_COUNT * 50 / 100
    case MediumPlus => CHARACTER_COUNT * 80 / 100
    case Hard => CHARACTER_COUNT
  }

  /** Every character occurs an even number of times. */
  ghost predicate AllPaired(cards: seq<CharId>) {
    forall c :: multiset(cards)[c] % 2 == 0
  }

  /** A run of `count` copies of ch. */
  function Copies(ch: CharId, count: nat): seq<CharId> {
    seq(count, _ => ch)
  }

  /** Appends `count` copies of ch, one at a time, as the game's inner push loop does. */
  method PushCopies(pairs: seq<CharId>, ch: CharId, count: nat) returns (out: seq<CharId>)
    ensures out == pairs + Copies(ch, count)
    ensures |out| == |pairs| + count
    ensures out[..|pairs|] == pairs
    ensures forall i :: |pairs| <= i < |out| ==> out[i] == ch
    ensures forall c :: multiset(out)[c] == multiset(pairs)[c] + (if c == ch then count else 0)
  {
    out := pairs;
    var i := 0;
    while i < count
      invariant 0 <= i <= count
      invariant out == pairs + Copies(ch, i)
      invariant |out| == |pairs| + i
      invariant out[..|pairs|] == pairs
      invariant forall k :: |pairs| <= k < |out| ==> out[k] == ch
      invariant forall c :: multiset(out)[c] == multiset(pairs)[c] + (if c == ch then i else 0)
    {
      assert Copies(ch, i) + [ch] == Copies(ch, i + 1);
      out := out + [ch];
      i := i + 1;
    }
  }

  /**
   * The list the dealing loop builds from `pairs` on, starting with draw `index`: while it is
   * shorter than total, append a run of character index % n with PairRun(draws(index))
   * copies, or a single pair when that run would pass total.
   */
  ghost function Runs(total: nat, n: nat, draws: nat -> nat, index: nat, pairs: seq<CharId>): seq<CharId>
    requires 0 < n
    decreases total - |pairs|
  {
    if |pairs| >= total then pairs
    else Runs(total, n, draws, index + 1, pairs + Copies(index % n, RunLength(total, |pairs|, draws(index))))
  }

  /** The copies pushed for one draw: PairRun of it, or one pair when that would pass total. */
  function RunLength(total: nat, dealt: nat, draw: nat): (r: nat)
    ensures r % 2 == 0 && 2 <= r <= 8
    ensures r == 2 || dealt + r <= total
  {
    if dealt + PairRun(draw) > total then 2 else PairRun(draw)
  }

  /**
   * The card list of initializeBoard before shuffling: the runs of Runs, cut to `total` cards.
   * With an even total the cut removes nothing, and every character is paired; with an odd
   * total one card is cut and the character of that card is left unpaired. When total exceeds 8 cards per
   * character but the last, every character is dealt at least once.
   */
  method DealCards(total: nat, n: nat, pairDraws: nat -> nat) returns (cards: seq<CharId>)
    requires 0 < n
    ensures |Runs(total, n, pairDraws, 0, [])| >= total
    ensures cards == Runs(total, n, pairDraws, 0, [])[..total]
    ensures total % 2 == 0 ==> |Runs(total, n, pairDraws, 0, [])| == total
    ensures total % 2 == 1 ==> |Runs(total, n, pairDraws, 0, [])| == total + 1
    ensures AllPaired(Runs(total, n, pairDraws, 0, []))
    ensures total % 2 == 1 ==> multiset(cards)[Runs(total, n, pairDraws, 0, [])[total]] % 2 == 1
    ensures forall i :: 0 <= i < |cards| ==> cards[i] < n
    ensures total % 2 == 0 ==> AllPaired(cards)
    ensures total % 2 == 1 ==> exists c :: multiset(cards)[c] % 2 == 1
    ensures total > 8 * (n - 1) ==> forall c :: 0 <= c < n ==> c in cards
  {
    var pairs: seq<CharId> := [];
    var index := 0;
    while |pairs| < total
      invariant |pairs| % 2 == 0 && |pairs| <= total + 1
      invariant forall i :: 0 <= i < |pairs| ==> pairs[i] < n
      invariant AllPaired(pairs)
      invariant Runs(total, n, pairDraws, index, pairs) == Runs(total, n, pairDraws, 0, [])
      decreases total - |pairs|
    {
      var ch := index % n;
      var run := RunLength(total, |pairs|, pairDraws(index));
      var before := pairs;
      pairs := PushCopies(pairs, ch, run);
      DealStep(before, pairs, ch, run, total, n);
      index := index + 1;
    }
    cards := pairs[..total];
    if total % 2 == 1 {
      CutOfRuns(total, n, pairDraws, pairs, cards);
    } else {
      assert cards == pairs;
    }
    if total > 8 * (n - 1) {
      forall c | 0 <= c < n
        ensures c in cards
      {
        RunsDealEvery(total, n, pairDraws, 0, [], c);
      }
    }
  }

  /** One step of Runs: a list shorter than total gains the run of draw `index`. */
  lemma RunsStep(total: nat, n: nat, draws: nat -> nat, index: nat, pairs: seq<CharId>)
    requires 0 < n && |pairs| < total
    ensures Runs(total, n, draws, index, pairs)
         == Runs(total, n, draws, index + 1, pairs + Copies(index % n, RunLength(total, |pairs|, draws(index))))
  {
  }

  /** Runs only appends: it keeps `pairs` as its prefix and reaches at least total cards. */
  lemma {:induction false} RunsExtend(total: nat, n: nat, draws: nat -> nat, index: nat, pairs: seq<CharId>)
    requires 0 < n
    ensures |Runs(total, n, draws, index, pairs)| >= total
    ensures |Runs(total, n, draws, index, pairs)| >= |pairs|
    ensures Runs(total, n, draws, index, pairs)[..|pairs|] == pairs
    decreases total - |pairs|
  {
    if |pairs| < total {
      var next := pairs + Copies(index % n, RunLength(total, |pairs|, draws(index)));
      RunsStep(total, n, draws, index, pairs);
      RunsExtend(total, n, draws, index + 1, next);
      assert next[..|pairs|] == pairs;
    }
  }

  /** A list shorter than total is followed by a card of character index % n. */
  lemma RunStart(total: nat, n: nat, draws: nat -> nat, index: nat, pairs: seq<CharId>)
    requires 0 < n && |pairs| < total
    ensures |Runs(total, n, draws, index, pairs)| >= total
    ensures Runs(total, n, draws, index, pairs)[|pairs|] == index % n
  {
    var next := pairs + Copies(index % n, RunLength(total, |pairs|, draws(index)));
    RunsStep(total, n, draws, index, pairs);
    RunsExtend(total, n, draws, index + 1, next);
    var r := Runs(total, n, draws, index + 1, next);
    assert r[|pairs|] == r[..|next|][|pairs|] == next[|pairs|];
  }

  lemma ModOfSmaller(c: nat, n: nat)
    requires c < n
    ensures c % n == c
  {
  }

  /**
   * While the list holds at most 8 cards per draw so far and total exceeds 8 cards for every
   * character but the last, the run of character c (drawn at index c) starts before the cut.
   */
  lemma {:induction false} RunsDealEvery(total: nat, n: nat, draws: nat -> nat, index: nat, pairs: seq<CharId>, c: nat)
    requires 0 < n && index <= c < n && |pairs| <= 8 * index && total > 8 * (n - 1)
    ensures |Runs(total, n, draws, index, pairs)| >= total
    ensures c in Runs(total, n, draws, index, pairs)[..total]
    decreases c - index
  {
    if index == c {
      RunStart(total, n, draws, index, pairs);
      ModOfSmaller(c, n);
      var r := Runs(total, n, draws, index, pairs);
      assert |pairs| < total;
      assert r[|pairs|] == c;
      assert r[..total][|pairs|] == c;
    } else {
      var next := pairs + Copies(index % n, RunLength(total, |pairs|, draws(index)));
      RunsStep(total, n, draws, index, pairs);
      RunsDealEvery(total, n, draws, index + 1, next, c);
    }
  }

  /** A run of 2, 4, 6 or 8 copies, drawn as the game draws it (a random number in [0, 4), plus one, doubled). */
  function PairRun(draw: nat): (r: nat)
    ensures 2 <= r <= 8 && r % 2 == 0
  {
    (draw % 4 + 1) * 2
  }

  /** One run of copies keeps the dealt list even, paired, within one card of the total and in range. */
  lemma DealStep(pairs: seq<CharId>, out: seq<CharId>, ch: CharId, run: nat, total: nat, n: nat)
    requires |pairs| % 2 == 0 && |pairs| < total && AllPaired(pairs)
    requires forall i :: 0 <= i < |pairs| ==> pairs[i] < n
    requires ch < n && run % 2 == 0 && (run == 2 || |pairs| + run <= total)
    requires |out| == |pairs| + run && out[..|pairs|] == pairs
    requires forall i :: |pairs| <= i < |out| ==> out[i] == ch
    requires forall c :: multiset(out)[c] == multiset(pairs)[c] + (if c == ch then run else 0)
    ensures |out| % 2 == 0 && |out| <= total + 1
    ensures forall i :: 0 <= i < |out| ==> out[i] < n
    ensures AllPaired(out)
  {
    EvenRunKeepsPaired(pairs, out, ch, run);
    forall i | 0 <= i < |out|
      ensures out[i] < n
    {
      if i < |pairs| {
        assert out[i] == out[..|pairs|][i];
      }
    }
  }

  /** Adding an even number of copies of one character keeps every count even. */
  lemma EvenRunKeepsPaired(pairs: seq<CharId>, out: seq<CharId>, ch: CharId, count: nat)
    requires AllPaired(pairs) && count % 2 == 0
    requires forall c :: multiset(out)[c] == multiset(pairs)[c] + (if c == ch then count else 0)
    ensures AllPaired(out)
  {
    forall c
      ensures multiset(out)[c] % 2 == 0
    {
      EvenSum(multiset(pairs)[c], if c == ch then count else 0);
    }
  }

  lemma EvenSum(a: nat, b: nat)
    requires a % 2 == 0 && b % 2 == 0
    ensures (a + b) % 2 == 0
  {
  }

  /** Cutting the last card off a fully paired list leaves that card's character unpaired. */
  lemma CutLeavesUnpaired(pairs: seq<CharId>, total: nat)
    requires AllPaired(pairs) && |pairs| == total + 1
    ensures multiset(pairs[..total])[pairs[total]] % 2 == 1
  {
    assert pairs == pairs[..total] + [pairs[total]];
    assert multiset(pairs)[pairs[total]] == multiset(pairs[..total])[pairs[total]] + 1;
  }

  /** With an odd total, the one card cut off the paired runs leaves its own character unpaired. */
  lemma CutOfRuns(total: nat, n: nat, draws: nat -> nat, pairs: seq<CharId>, cards: seq<CharId>)
    requires 0 < n && total % 2 == 1
    requires pairs == Runs(total, n, draws, 0, []) && AllPaired(pairs) && |pairs| == total + 1
    requires cards == pairs[..total]
    ensures multiset(cards)[Runs(total, n, draws, 0, [])[total]] % 2 == 1
    ensures exists c :: multiset(cards)[c] % 2 == 1
  {
    CutLeavesUnpaired(pairs, total);
  }

  /** Exchanges the entries at i and j. */
  function Swap(s: seq<CharId>, i: nat, j: nat): (r: seq<CharId>)
    requires i < |s| && j < |s|
    ensures |r| == |s| && r[i] == s[j] && r[j] == s[i]
    ensures forall k :: 0 <= k < |s| && k != i && k != j ==> r[k] == s[k]
  {
    s[i := s[j]][j := s[i]]
  }

  /** A swap keeps the same cards. */
  lemma SwapKeeps(s: seq<CharId>, i: nat, j: nat)
    requires i < |s| && j < |s|
    ensures multiset(Swap(s, i, j)) == multiset(s)
  {
    var t := s[i := s[j]];
    assert multiset(t) == multiset(s) - multiset{s[i]} + multiset{s[j]};
    assert multiset(t[j := s[i]]) == multiset(t) - multiset{t[j]} + multiset{s[i]};
  }

  /**
   * The Fisher-Yates shuffle of initializeBoard: for i from the last index down to 1,
   * exchange entry i with entry `draw % (i + 1)`.
   */
  method Shuffle(cards: seq<CharId>, swapDraws: nat -> nat) returns (s: seq<CharId>)
    ensures |s| == |cards|
    ensures multiset(s) == multiset(cards)
  {
    s := cards;
    var i := |s| - 1;
    while i > 0
      invariant |s| == |cards| && -1 <= i < |s|
      invariant multiset(s) == multiset(cards)
    {
      var j := swapDraws(i) % (i + 1);
      SwapKeeps(s, i, j);
      s := Swap(s, i, j);
      i := i - 1;
    }
  }

  /** The game's inner fill loop for one row: the cols cards from `start` on, in order. */
  method FillRow(cards: seq<CharId>, start: nat, cols: nat) returns (row: seq<Cell>)
    requires start + cols <= |cards|
    ensures row == Cards(cards[start..start + cols])
  {
    row := [];
    var index := start;
    while index < start + cols
      invariant start <= index <= start + cols
      invariant row == Cards(cards[start..index])
    {
      row := row + [Card(cards[index])];
      index := index + 1;
    }
  }

  lemma RowBounds(i: nat, rows: nat, cols: nat)
    requires i < rows
    ensures i * cols + cols == (i + 1) * cols <= rows * cols
  {
  }

  /** Row a of the fill: the cols cards starting at card a * cols. */
  ghost predicate RowFilled(row: seq<Cell>, cards: seq<CharId>, start: nat, cols: nat) {
    start + cols <= |cards| && row == Cards(cards[start..start + cols])
  }

  /** The first |g| rows hold the cards row by row: card a * cols + b in row a, column b. */
  ghost predicate FilledRows(g: Grid, cards: seq<CharId>, cols: nat) {
    forall a :: 0 <= a < |g| ==> RowFilled(g[a], cards, a * cols, cols)
  }

  /** The filled rows form a |g| by cols board. */
  lemma FilledShape(g: Grid, cards: seq<CharId>, rows: nat, cols: nat)
    requires FilledRows(g, cards, cols) && |g| == rows
    ensures WellFormed(g, rows, cols)
  {
    forall i | 0 <= i < rows
      ensures |g[i]| == cols
    {
      assert RowFilled(g[i], cards, i * cols, cols);
    }
  }

  /** After the fill, the cell in row i and column j holds card i * cols + j. */
  lemma FilledCell(g: Grid, cards: seq<CharId>, cols: nat, i: nat, j: nat)
    requires FilledRows(g, cards, cols) && i < |g| && j < cols
    ensures i * cols + j < |cards| && g[i][j] == Card(cards[i * cols + j])
  {
    assert RowFilled(g[i], cards, i * cols, cols);
    NewRowCell(cards, i * cols, cols, g[i], j);
  }

  /** Appending the fill of row |g| keeps the rows filled. */
  lemma FillNextRow(g: Grid, cards: seq<CharId>, cols: nat, row: seq<Cell>)
    requires FilledRows(g, cards, cols) && RowFilled(row, cards, |g| * cols, cols)
    ensures FilledRows(g + [row], cards, cols)
  {
    var g' := g + [row];
    forall a | 0 <= a < |g'|
      ensures RowFilled(g'[a], cards, a * cols, cols)
    {
      if a < |g| {
        assert g'[a] == g[a];
      }
    }
  }

  lemma NewRowCell(cards: seq<CharId>, start: nat, cols: nat, row: seq<Cell>, b: nat)
    requires start + cols <= |cards| && row == Cards(cards[start..start + cols]) && b < cols
    ensures start + b < |cards| && row[b] == Card(cards[start + b])
  {
  }

  /** The fill read row by row gains the row's cards. */
  lemma FillNextRowTiles(g: Grid, cards: seq<CharId>, start: nat, cols: nat, row: seq<Cell>)
    requires start + cols <= |cards| && RowMajorTiles(g) == cards[..start]
    requires row == Cards(cards[start..start + cols])
    ensures RowMajorTiles(g + [row]) == cards[..start + cols]
  {
    TilesOfCards(cards[start..start + cols]);
    RowMajorAppend(g, [row]);
    assert RowMajorTiles([row]) == Tiles(row);
    assert cards[..start + cols] == cards[..start] + cards[start..start + cols];
  }

  /** One pass of the fill's outer loop keeps both descriptions of the rows filled so far. */
  lemma FillStep(g: Grid, cards: seq<CharId>, rows: nat, cols: nat, index: nat, row: seq<Cell>)
    requires |cards| == rows * cols && |g| < rows && index == |g| * cols
    requires FilledRows(g, cards, cols) && RowMajorTiles(g) == cards[..index]
    requires index + cols <= |cards| && row == Cards(cards[index..index + cols])
    ensures index + cols == (|g| + 1) * cols
    ensures FilledRows(g + [row], cards, cols) && RowMajorTiles(g + [row]) == cards[..index + cols]
  {
    RowBounds(|g|, rows, cols);
    FillNextRow(g, cards, cols, row);
    FillNextRowTiles(g, cards, index, cols, row);
  }

  /**
   * The board fill of initializeBoard: card i * cols + j goes to row i, column j, so the
   * board read row by row is the card list.
   */
  method FillBoard(cards: seq<CharId>, rows: nat, cols: nat) returns (g: Grid)
    requires |cards| == rows * cols
    ensures WellFormed(g, rows, cols)
    ensures FilledRows(g, cards, cols)
    ensures RowMajorTiles(g) == cards
  {
    g := [];
    var index := 0;
    var i := 0;
    while i < rows
      invariant 0 <= i <= rows && |g| == i
      invariant index == i * cols && index <= |cards|
      invariant FilledRows(g, cards, cols)
      invariant RowMajorTiles(g) == cards[..index]
    {
      RowBounds(i, rows, cols);
      var row := FillRow(cards, index, cols);
      FillStep(g, cards, rows, cols, index, row);
      g := g + [row];
      index := index + cols;
      i := i + 1;
    }
    assert cards[..index] == cards;
  }

  /** The runs the dealing loop builds for a rows by cols board over the difficulty's characters, before the cut. */
  ghost function DealtRuns(rows: nat, cols: nat, difficulty: Difficulty, draws: nat -> nat): seq<CharId> {
    Runs(rows * cols, CharacterCount(difficulty), draws, 0, [])
  }

  /** The dealt list of initializeBoard before shuffling: the runs cut to rows * cols cards. */
  ghost function DealtCards(rows: nat, cols: nat, difficulty: Difficulty, draws: nat -> nat): (cards: seq<CharId>)
    ensures |cards| == rows * cols
  {
    RunsExtend(rows * cols, CharacterCount(difficulty), draws, 0, []);
    DealtRuns(rows, cols, difficulty, draws)[..rows * cols]
  }

  /**
   * initializeBoard: deal rows * cols cards over the difficulty's characters, shuffle them
   * and lay them out. With an even number of cells every character is paired; with an odd
   * number, one character is left with an odd count.
   */
  method InitializeBoard(rows: nat, cols: nat, difficulty: Difficulty, pairDraws: nat -> nat, swapDraws: nat -> nat)
    returns (g: Grid)
    ensures WellFormed(g, rows, cols)
    ensures forall i, j :: 0 <= i < rows && 0 <= j < cols ==> g[i][j].Card? && g[i][j].ch < CharacterCount(difficulty)
    ensures (rows * cols) % 2 == 0 ==> forall c :: BoardTiles(g)[c] % 2 == 0
    ensures (rows * cols) % 2 == 1 ==> exists c :: BoardTiles(g)[c] % 2 == 1
    ensures rows * cols > 8 * (CharacterCount(difficulty) - 1) ==>
              forall c :: 0 <= c < CharacterCount(difficulty) ==> BoardTiles(g)[c] > 0
    ensures BoardTiles(g) == multiset(DealtCards(rows, cols, difficulty, pairDraws))
    ensures (rows * cols) % 2 == 0 ==> DealtCards(rows, cols, difficulty, pairDraws) == DealtRuns(rows, cols, difficulty, pairDraws)
  {
    var n := CharacterCount(difficulty);
    var total := rows * cols;
    var dealt := DealCards(total, n, pairDraws);
    DealtIsCut(rows, cols, difficulty, pairDraws, total, dealt);
    var cards := Shuffle(dealt, swapDraws);
    g := FillBoard(cards, rows, cols);
    DealtBoard(g, dealt, cards, rows, cols, n);
    EveryDealtOnBoard(BoardTiles(g), dealt, n);
  }

  /** The list the dealing loop returns for a rows by cols board is the cut runs, and the whole runs when the count is even. */
  lemma DealtIsCut(rows: nat, cols: nat, difficulty: Difficulty, draws: nat -> nat, total: nat, dealt: seq<CharId>)
    requires total == rows * cols
    requires |Runs(total, CharacterCount(difficulty), draws, 0, [])| >= total
    requires dealt == Runs(total, CharacterCount(difficulty), draws, 0, [])[..total]
    requires total % 2 == 0 ==> |Runs(total, CharacterCount(difficulty), draws, 0, [])| == total
    ensures dealt == DealtCards(rows, cols, difficulty, draws)
    ensures total % 2 == 0 ==> DealtCards(rows, cols, difficulty, draws) == DealtRuns(rows, cols, difficulty, draws)
  {
  }

  /** A board holding the dealt cards shows every character that was dealt. */
  lemma EveryDealtOnBoard(tiles: multiset<CharId>, dealt: seq<CharId>, n: nat)
    requires tiles == multiset(dealt)
    ensures (forall c :: 0 <= c < n ==> c in dealt) ==> forall c :: 0 <= c < n ==> tiles[c] > 0
  {
    forall c | 0 <= c < n && c in dealt
      ensures tiles[c] > 0
    {
      assert c in multiset(dealt);
    }
  }

  lemma CellsInRange(g: Grid, cards: seq<CharId>, rows: nat, cols: nat, n: nat)
    requires |g| == rows && FilledRows(g, cards, cols)
    requires forall i :: 0 <= i < |cards| ==> cards[i] < n
    ensures WellFormed(g, rows, cols)
    ensures forall i, j :: 0 <= i < rows && 0 <= j < cols ==> g[i][j].Card? && g[i][j].ch < n
  {
    FilledShape(g, cards, rows, cols);
    forall i, j | 0 <= i < rows && 0 <= j < cols
      ensures g[i][j].Card? && g[i][j].ch < n
    {
      FilledCell(g, cards, cols, i, j);
    }
  }

  /** What the filled board inherits from the dealt list: its range and the parity of every count. */
  lemma DealtBoard(g: Grid, dealt: seq<CharId>, cards: seq<CharId>, rows: nat, cols: nat, n: nat)
    requires |g| == rows && FilledRows(g, cards, cols) && RowMajorTiles(g) == cards
    requires |dealt| == rows * cols && multiset(cards) == multiset(dealt)
    requires forall i :: 0 <= i < |dealt| ==> dealt[i] < n
    requires (rows * cols) % 2 == 0 ==> AllPaired(dealt)
    requires (rows * cols) % 2 == 1 ==> exists c :: multiset(dealt)[c] % 2 == 1
    ensures WellFormed(g, rows, cols)
    ensures forall i, j :: 0 <= i < rows && 0 <= j < cols ==> g[i][j].Card? && g[i][j].ch < n
    ensures (rows * cols) % 2 == 0 ==> forall c :: BoardTiles(g)[c] % 2 == 0
    ensures (rows * cols) % 2 == 1 ==> exists c :: BoardTiles(g)[c] % 2 == 1
    ensures BoardTiles(g) == multiset(dealt)
  {
    ShuffledInRange(dealt, cards, n);
    CellsInRange(g, cards, rows, cols, n);
    assert BoardTiles(g) == multiset(dealt);
    SameParity(BoardTiles(g), dealt);
  }

  /** A board holding the dealt cards has every count even when they were paired, and an odd one when they were not. */
  lemma SameParity(tiles: multiset<CharId>, dealt: seq<CharId>)
    requires tiles == multiset(dealt)
    ensures AllPaired(dealt) ==> forall c :: tiles[c] % 2 == 0
    ensures (exists c :: multiset(dealt)[c] % 2 == 1) ==> exists c :: tiles[c] % 2 == 1
  {
    if exists c :: multiset(dealt)[c] % 2 == 1 {
      var c :| multiset(dealt)[c] % 2 == 1;
      assert tiles[c] % 2 == 1;
    }
  }

  /** A permutation of cards below n holds only cards below n. */
  lemma ShuffledInRange(dealt: seq<CharId>, cards: seq<CharId>, n: nat)
    requires multiset(cards) == multiset(dealt)
    requires forall i :: 0 <= i < |dealt| ==> dealt[i] < n
    ensures forall i :: 0 <= i < |cards| ==> cards[i] < n
  {
    forall i | 0 <= i < |cards|
      ensures cards[i] < n
    {
      assert cards[i] in multiset(dealt);
    }
  }

  /** The restart button's fix: one more column when rows * cols is odd. */
  function EvenCells(rows: nat, cols: nat): (c: nat)
    ensures (rows * c) % 2 == 0
    ensures c == cols || c == cols + 1
    ensures (rows * cols) % 2 == 0 <==> c == cols
  {
    if (rows * cols) % 2 != 0 then
      OddProduct(rows, cols);
      cols + 1
    else cols
  }

  /** A product is odd exactly when both factors are odd. */
  lemma {:induction false} ProductParity(x: nat, y: nat)
    ensures (x * y) % 2 == 1 <==> x % 2 == 1 && y % 2 == 1
    decreases x
  {
    if x > 0 {
      ProductParity(x - 1, y);
      MulStep(x, y);
      AddParity((x - 1) * y, y);
    }
  }

  lemma MulStep(x: nat, y: nat)
    requires x > 0
    ensures x * y == (x - 1) * y + y
  {
  }

  lemma AddParity(a: nat, b: nat)
    ensures (a + b) % 2 == (a % 2 + b % 2) % 2
  {
  }

  lemma OddProduct(rows: nat, cols: nat)
    requires (rows * cols) % 2 != 0
    ensures rows % 2 == 1 && (rows * (cols + 1)) % 2 == 0
  {
    ProductParity(rows, cols);
    ProductParity(rows, cols + 1);
  }

  /**
   * A new game as the restart button starts it: the column count is made even first, so
   * every character on the new board is paired.
   */
  method NewGame(rows: nat, cols: nat, difficulty: Difficulty, pairDraws: nat -> nat, swapDraws: nat -> nat)
    returns (g: Grid, cols': nat)
    ensures cols' == EvenCells(rows, cols)
    ensures WellFormed(g, rows, cols')
    ensures forall i, j :: 0 <= i < rows && 0 <= j < cols' ==> g[i][j].Card? && g[i][j].ch < CharacterCount(difficulty)
    ensures forall c :: BoardTiles(g)[c] % 2 == 0
    ensures var runs := DealtRuns(rows, cols', difficulty, pairDraws);
            |runs| == rows * cols' && BoardTiles(g) == multiset(runs)
  {
    cols' := EvenCells(rows, cols);
    g := InitializeBoard(rows, cols', difficulty, pairDraws, swapDraws);
  }
}
